=== FILE: README.md ===
# gpu.js WebGL kernel backend, modelled in Dafny

This project models `GPU.prototype._mode_gpu` in `src/backend/mode_gpu.js`.
That function turns a JavaScript kernel function into a callable kernel that
runs on WebGL. The model covers the following parts of the backend:

- **Layout helpers.**
  - `dimToTexSize` picks the square texture side `ceil(sqrt(n))` for `n` elements.
  - `validateStringIsFunction` checks the kernel's source text.
  - `getDimensions` measures the nesting lengths of an array, innermost first, and can pad them to three.
  - `pad`, `flatten` (one level) and `splitArray` reshape arrays.
  - `getArgumentType` classifies a value as `Array`, `Number`, `Texture` or `Unknown`.
- **The program cache key.** `getProgramCacheKey` builds a string from:
  - the argument type words;
  - with `hardcodeConstants` set, the padded dimension triples of array and texture arguments;
  - a `-`-separated suffix for wraparound, hard-coding and constants.

  The model proves what the key does and does not tell apart.
- **The arithmetic of the generated fragment shader.**
  - `integerMod`.
  - `indexTo3D`, which maps a thread index to `(x, y, z)`.
  - `get`, which maps a coordinate, optionally wrapped, to a texel of a square input texture.
  - The thread index computed in `main`.
  - The integer part of the byte packing of `encode32`/`decode32`: sign, biased exponent and three mantissa bytes in an RGBA texel, with the channel swap for big-endian hosts.
- **The kernel object.**
  - It holds the options object `opt` and the program cache, and has fluent setters.
  - A call resolves the output dimensions. It infers them from a lone texture argument and keeps them in `opt`.
  - It sizes the framebuffer, looks up the program, and compiles and caches it on a miss.
  - It binds argument `i` to texture unit `i` or to a float uniform. An array is uploaded after `flatten` and zero-filling, and this grows a 1-D argument array in place.
  - It then returns a `GPUTexture`, nothing (graphical mode), or the readback. The readback is truncated to the thread count and split into rows and slices.

The WebGL context is a `Gl` record (`kernel.dfy`). It holds the answers the backend receives during one call:

- whether each shader compiles;
- the program and output texture that get created;
- the float decoded at each texel of the framebuffer.

`JSON.stringify` of the constants is a function parameter. The parameter names parsed from the kernel text are a constructor parameter.

Files:

| file | content |
|---|---|
| `wrappers.dfy` | `Option`, `Result` |
| `values.dfy` | JavaScript values the backend distinguishes, `GPUTexture`, error kinds, `getArgumentType` |
| `layout.dfy` | layout helpers (lines 2-88) |
| `shader.dfy` | integer semantics of the generated GLSL helpers (lines 262-388) |
| `options.dfy` | the options object and the `LOOP_MAX` rule |
| `cache_key.dfy` | `getProgramCacheKey` and what the key determines |
| `binding.dfy` | the argument binding loop (lines 466-521) |
| `readback.dfy` | readback truncation and reshaping (lines 550-564) |
| `kernel.dfy` | the kernel object, its call, its setters and `_mode_gpu` |

### Where the code departs from its evident intent

In each case below the code does something other than what the surrounding code and its messages suggest was meant. The model follows the code.

- **Auto-dimensions from an array.** Inferred dimensions are meant to come from the lone argument's shape. The code at line 163 passes the type word `"Array"` to `getDimensions` instead of the argument, so inference from an array always fails with "Unknown dimensions of Array". Only a texture argument supplies dimensions (`Kernel.AutoDimensions`).
- **Different programs can share a key.** The cache is meant to return a program only for calls that would generate the same source. The key omits:
  - `graphical`, which sets `outputToColor` at line 372;
  - `loopMaxIterations`, which sets `LOOP_MAX` at line 256;
  - the values of number arguments, which are compiled in when hard-coding (line 217);
  - with hard-coding, every output dimension after the third. Line 123 keys only the first three, but the texture size (line 171), and with it the hard-coded `uTexSize` (line 259), uses all of them. Outputs `[2, 2, 2, 2]` and `[2, 2, 2, 3]` share a key but need framebuffers of side 4 and 5.
  - with hard-coding, every dimension of an array or texture argument after the third. Line 111 keys only the first three padded dimensions, but the argument's texture (lines 469-470) and the hard-coded `user_xSize` (lines 210-214) are sized from all of them. Arrays measuring `[2, 2, 2, 2]` and `[2, 2, 2, 3]` share a key but are uploaded into textures of side 4 and 5.

  A cached program is therefore reused after those change (`CacheKey.KeyIgnoresUnkeyedOptions`, `CacheKey.LoopLimitStaleKey`, `CacheKey.KeyIgnoresNumberValues`, `Kernel.OutputRankStaleKey`, `Kernel.ArgumentRankStaleKey`).
- **No link check.** A failed link is evidently meant to be an error like a failed compile. The code never checks the link status, so only the two compile errors are modelled.
- **Partial effects on failure.** A failing call is meant to leave nothing behind. In the code, a failing call can still change state:
  - a newly compiled program stays cached when argument binding fails;
  - inferred dimensions stay in `opt` when the graphical check fails;
  - 1-D arrays bound before an unsupported argument have already been grown (`Kernel.Kernel.Call`).
- **One-level flatten.** Upload is meant to be the inverse of readback reshaping. `flatten` only removes one level of nesting, so a 3-D array is uploaded as a sequence of rows rather than as numbers (`Layout.FlattenIsOneLevel`).

## Model

| member | source | states |
|---|---|---|
| Values.GetArgumentType | src/backend/mode_gpu.js:90-100 | Arrays, numbers and textures classify as `Array`, `Number` and `Texture`. Every other value classifies as `Unknown`, in both directions. |
| Values.TypeWord | src/backend/mode_gpu.js:92-98 | A type word has at least five letters and contains no `-` or `[`. |
| Values.TypeWordsPrefixFree | src/backend/mode_gpu.js:92-98 | Different argument kinds have type words with different first letters, so a key's text identifies each kind. |
| Values.ArgTypes | src/backend/mode_gpu.js:104-105 | The kinds of a list of arguments, one per argument, in order. |
| Layout.CeilSqrt | src/backend/mode_gpu.js:19 | `w = ceil(sqrt(n))`: `w*w >= n`, and `(w-1)*(w-1) < n` when `n >= 1`. |
| Layout.CeilSqrtIsLeast | src/backend/mode_gpu.js:19 | Every `v` with `v*v >= n` is at least `ceil(sqrt(n))`. |
| Layout.CeilSqrtUnique | src/backend/mode_gpu.js:19 | The defining inequalities have exactly one solution. |
| Layout.DimToTexSize | src/backend/mode_gpu.js:2-21 | Multiplies the dimensions in a loop and returns the square `[w, w]` with `w = ceil(sqrt(product))`. |
| Layout.ValidateStringIsFunction | src/backend/mode_gpu.js:23-28 | True iff the text is present and its first eight characters, lower-cased, are `function`. |
| Layout.ValidateIgnoresCase | src/backend/mode_gpu.js:25 | Texts that agree after lower-casing are accepted alike. |
| Layout.Reverse | src/backend/mode_gpu.js:39 | The reversal has the same length, with element `i` taken from position `n-1-i`. |
| Layout.PadTo | src/backend/mode_gpu.js:48-50 | The result keeps the original elements and appends fill values up to the target length. |
| Layout.PushUntil | src/backend/mode_gpu.js:48-50 | The push loop returns the padded sequence. |
| Layout.NestingDims | src/backend/mode_gpu.js:33-39 | The `while (Array.isArray(temp))` loop collects the lengths met going down through first elements, outermost first. |
| Layout.GetDimensions | src/backend/mode_gpu.js:30-54 | Returns the nesting lengths innermost first, or a texture's dimensions, padded to three when asked. Any other value fails with "Unknown dimensions". |
| Layout.PaddedDimensions | src/backend/mode_gpu.js:46-51 | Padding to three keeps the product of the dimensions. |
| Layout.VectorDimensions | src/backend/mode_gpu.js:32-39 | A flat array of length `n` measures `[n, 1, 1]` once padded to three. |
| Layout.MatrixDimensions | src/backend/mode_gpu.js:32-39 | `rows` arrays of length `cols` measure `[cols, rows, 1]` once padded to three. |
| Layout.FlattenVector | src/backend/mode_gpu.js:74-80 | `flatten` returns a flat array as it is. |
| Layout.FlattenMatrix | src/backend/mode_gpu.js:74-80 | `flatten` of a matrix has length `rows*cols`, and element `k` is `m[k/cols][k%cols]`. |
| Layout.FlattenIsOneLevel | src/backend/mode_gpu.js:74-80 | `flatten` removes only the outer level of nesting. |
| Layout.BorderShape | src/backend/mode_gpu.js:63-69 | Each padding step adds a zero row above and below and keeps every row's length. |
| Layout.PadMatrix | src/backend/mode_gpu.js:56-72 | An `n`-row matrix of `cols` columns gets `p` rows of `n+2p` zeros above and below (line 61 takes the length from the row count); each middle row is the original row with `p` zeros on each side. |
| Layout.PadRagged | src/backend/mode_gpu.js:61-68 | A 1×3 matrix padded by 1 has rows of lengths 3, 5 and 3: a non-square input gives ragged rows. |
| Layout.PadSquare | src/backend/mode_gpu.js:56-72 | An `n`×`n` matrix becomes `(n+2p)`×`(n+2p)`, with the original at offset `(p, p)` and zeros everywhere else. |
| Layout.SplitArray | src/backend/mode_gpu.js:82-88 | The loop returns the chunks of length `part`, the last possibly shorter, whose concatenation is the input. |
| Layout.SplitExact | src/backend/mode_gpu.js:82-88 | When the length is `part*n`, there are exactly `n` chunks, all of length `part`, so no chunk is short. |
| Layout.ConcatAt | src/backend/mode_gpu.js:82-88 | When every chunk before the last has length `part`, element `j` of chunk `k` is element `k*part + j` of the concatenation. |
| Shader.IntegerMod | src/backend/mode_gpu.js:262-270 | The GLSL `integerMod` of an integer by a positive divisor is the remainder in `[0, y)`. The `res > y - 0.5` correction never fires on integers. |
| Shader.IntegerModOfDecomposition | src/backend/mode_gpu.js:262-266 | `integerMod(q*y + r, y) == r` for `0 <= r < y`. |
| Shader.IndexTo3D | src/backend/mode_gpu.js:341-348 | Gives `0 <= x < dx` and `0 <= y < dy` with `z*dx*dy + y*dx + x == idx`, and `z >= 0` for a non-negative index. |
| Shader.IndexTo3DInRange | src/backend/mode_gpu.js:341-348 | A thread index below `dx*dy*dz` gives a coordinate inside the output dimensions. |
| Shader.AddressRoundTrip | src/backend/mode_gpu.js:341-353 | `get`'s linear index of `indexTo3D(idx)` is `idx` again. |
| Shader.CoordRoundTrip | src/backend/mode_gpu.js:341-353 | `indexTo3D` of `get`'s linear index of an in-range coordinate is that coordinate. |
| Shader.Wrap | src/backend/mode_gpu.js:352 | The `mod(xyz, texDim)` of wraparound mode puts every coordinate inside the dimensions. |
| Shader.WrapInside | src/backend/mode_gpu.js:352 | Wrapping leaves a coordinate that is already inside the dimensions unchanged. |
| Shader.WrappedIndexInRange | src/backend/mode_gpu.js:350-353 | With wraparound, the linear index is below `dx*dy*dz`. |
| Shader.TexelOf | src/backend/mode_gpu.js:354-356 | Index `i` maps to texel `(i % w, i / w)`, and `t*w + s` recovers `i`. |
| Shader.FragmentTexelAgreement | src/backend/mode_gpu.js:354-356 | The fragment at texel `(s, t)` computes thread index `t*w+s` (line 388), which is the index `get` stores at that texel. |
| Shader.SwapInvolution | src/backend/mode_gpu.js:332 | The big-endian channel swap undoes itself. |
| Shader.SplitMantissa | src/backend/mode_gpu.js:313-315 | The three mantissa parts are bytes below 256, 256 and 128. |
| Shader.SplitMantissaFraction | src/backend/mode_gpu.js:313-315 | The three parts recompose the 23-bit fraction of the significand. |
| Shader.PackIsBytes | src/backend/mode_gpu.js:326-331 | Every packed channel is a byte. |
| Shader.Unpack | src/backend/mode_gpu.js:279-284 | The decoded sign is always `+1` or `-1`. |
| Shader.UnpackPack | src/backend/mode_gpu.js:283-284 | Decoding a packed texel gives back the sign, exponent and mantissa bytes. |
| Shader.PackUnpack | src/backend/mode_gpu.js:326-331 | Every byte texel is the packing of its decoded fields. |
| Shader.PackIsBinary32 | src/backend/mode_gpu.js:326-331 | Read little-endian, the texel is the IEEE 754 binary32 bit pattern of the packed fields. |
| Shader.EncodeDecodeRoundTrip | src/backend/mode_gpu.js:276-335 | Packing then decoding a normalised float gives back its sign, exponent and fraction. |
| Shader.ZeroTexelDecodes | src/backend/mode_gpu.js:286-287 | The all-zero texel decodes as a positive zero. |
| KernelOptions.LoopMax | src/backend/mode_gpu.js:256 | `LOOP_MAX` is never 0: it is the default 100 or the configured limit, and a configured non-zero limit is always honoured. |
| CacheKey.NatToString | src/backend/mode_gpu.js:111 | A number's text is a non-empty string of decimal digits. |
| CacheKey.NatToStringInjective | src/backend/mode_gpu.js:111 | Different numbers print differently. |
| CacheKey.EntryText | src/backend/mode_gpu.js:111 | An entry past the end of the dimensions prints as `undefined`. No entry's text holds `[`, `]` or `-`. |
| CacheKey.TripleText | src/backend/mode_gpu.js:111 | The triple text starts with `[`, ends with its only `]`, and holds no `-`. |
| CacheKey.EntryTextInjective | src/backend/mode_gpu.js:111 | An entry's text tells whether the entry exists and, if so, its value. |
| CacheKey.TripleTextInjective | src/backend/mode_gpu.js:111 | Equal triple texts mean equal first three entries, `undefined` ones included. |
| CacheKey.ArgKey | src/backend/mode_gpu.js:105-112 | One argument's text starts with its type word's letter and holds no `-`. |
| CacheKey.ArgsKey | src/backend/mode_gpu.js:104-114 | The argument part holds no `-` and is empty iff there are no arguments. |
| CacheKey.ArgsKeySnoc | src/backend/mode_gpu.js:104-114 | Each loop step appends exactly that argument's text. |
| CacheKey.ArgKeyOf | src/backend/mode_gpu.js:105-112 | One loop step appends the argument's text: its type word, then its padded dimensions when hard-coding an array or texture. |
| CacheKey.BuildSpecialFlags | src/backend/mode_gpu.js:116-129 | The flag code builds `Wraparound`, `Hardcode` with the output triple, and `Constants` with the serialised constants, in that order. |
| CacheKey.GetProgramCacheKey | src/backend/mode_gpu.js:102-136 | The loop and the flag code compute the argument part, followed by `-` and the flags only when some flag is set. |
| CacheKey.ArgsKeyIsTypeWords | src/backend/mode_gpu.js:104-114 | Without hard-coding, the argument part is the concatenated type words. |
| CacheKey.KeyIgnoresShapes | src/backend/mode_gpu.js:102-136 | Without hard-coding, arguments of the same kinds share a key whatever their shapes and the output dimensions. |
| CacheKey.PlainKey | src/backend/mode_gpu.js:131-133 | With no flag set, the key is the type words and holds no `-`. |
| CacheKey.ArgsKeyDeterminesTypes | src/backend/mode_gpu.js:104-114 | Equal argument parts imply equal argument kinds, and with hard-coding equal first three padded dimensions of every array and texture. |
| CacheKey.ArgsKeyHead | src/backend/mode_gpu.js:104-114 | Equal argument parts start with the same kind (and with hard-coding the same padded triple for an array or texture) and continue with equal argument parts. |
| CacheKey.FlagsDetermineOptions | src/backend/mode_gpu.js:116-129 | Equal flag suffixes imply the same wraparound and hard-coding settings, the same presence of constants, with hard-coding the same first three output dimensions, and with constants the same serialised text. |
| CacheKey.FlagsStartWith | src/backend/mode_gpu.js:116-129 | Wraparound is set iff the suffix starts with `W`, and hard-coding iff what follows starts with `H`. |
| CacheKey.SameKeySameSignature | src/backend/mode_gpu.js:102-136 | Equal keys imply equal argument kinds and equal wraparound, hard-coding and constants-presence flags; with hard-coding, equal padded argument triples and equal first three output dimensions; with constants, equal serialised constants. |
| CacheKey.HardcodeSeparatesKeys | src/backend/mode_gpu.js:121-124 | Keys with hard-coding off never equal keys with hard-coding on. |
| CacheKey.KeyIgnoresUnkeyedOptions | src/backend/mode_gpu.js:102-136 | `graphical`, `loopMaxIterations`, `debug` and `outputToTexture` never change the key. |
| CacheKey.LoopLimitStaleKey | src/backend/mode_gpu.js:256 | Loop limits 100 and 5 give different `LOOP_MAX` values but the same key. |
| CacheKey.KeyIgnoresNumberValues | src/backend/mode_gpu.js:217 | Argument lists that differ only in number values share a key, even when the values are hard-coded into the program. |
| CacheKey.ArgsKeyIgnoresNumbers | src/backend/mode_gpu.js:104-114 | The argument part does not depend on number values. |
| Readback.SetLength | src/backend/mode_gpu.js:553 | `result.length = n` keeps the first `n` elements and reads `undefined` beyond the old end. |
| Readback.ReadBack | src/backend/mode_gpu.js:553-564 | The output has rank 1, 2 or 3 as the output dimensions do, or is empty for higher ranks. Each element is the truncated readback's element at the thread index. |
| Readback.SplitRows | src/backend/mode_gpu.js:558 | Splits into `d1` rows of `d0` columns, with element `[y][x]` equal to texel `y*d0 + x`. |
| Readback.SplitSlices | src/backend/mode_gpu.js:560-563 | Splits into `d2` slices of `d1` rows of `d0`, with element `[z][y][x]` equal to texel `z*d0*d1 + y*d0 + x`. |
| Readback.SlicesOfTexels | src/backend/mode_gpu.js:560 | Element `j` of slice `z` of the chunked readback is texel `z*plane + j`. |
| Readback.SplitEach | src/backend/mode_gpu.js:561-563 | Turns every slice of `d0*d1` elements into `d1` rows of `d0`, with element `[y][x]` equal to the slice's element `y*d0 + x`. |
| Readback.CubeFromSlices | src/backend/mode_gpu.js:560-563 | Slices of texels, each cut into rows, form the cube that holds texel `z*d0*d1 + y*d0 + x` at `[z][y][x]`. |
| Readback.CubeAgreesWithThreadIds | src/backend/mode_gpu.js:560-563 | Element `[z][y][x]` of a rank-3 result is the texel of the thread whose `indexTo3D` is `(x, y, z)`. |
| Readback.MatrixAgreesWithThreadIds | src/backend/mode_gpu.js:558 | Element `[y][x]` of a rank-2 result is the texel of the thread whose `indexTo3D` is `(x, y, 0)`. |
| Binding.FirstUnsupported | src/backend/mode_gpu.js:466-520 | Returns the first parameter index whose argument is not an array, number or texture, or the parameter count if there is none. |
| Binding.BindOne | src/backend/mode_gpu.js:467-517 | Binds one supported argument as the binding specification says: a texture for an array or a texture, a float uniform for a number. The argument is left as the in-place growth leaves it. |
| Binding.UploadArray | src/backend/mode_gpu.js:468-498 | The padded dimensions, the square texture size and the flattened, zero-filled data computed by the loop are the binding specification's. A 1-D argument is returned grown by the pushes. |
| Binding.BindArguments | src/backend/mode_gpu.js:466-521 | Binds parameter `i` to argument `i` until the first unsupported argument, which fails with that argument. Returns the arguments after growth. |
| Binding.UploadMatrix | src/backend/mode_gpu.js:468-487 | A matrix uploads as `[cols, rows, 1]` in a `w`×`w` texture, with element `[y][x]` at position `y*cols + x` of the data and zeros after. The caller's matrix is unchanged. |
| Binding.MatrixData | src/backend/mode_gpu.js:480-483 | Flattening a matrix and zero-filling it puts element `[y][x]` at position `y*cols + x`. |
| Binding.UploadVector | src/backend/mode_gpu.js:480-483 | A vector uploads as `[n, 1, 1]` with its elements first and zeros after. The caller's array becomes that data, and grows iff `n` is not a perfect square. |
| Binding.GrowOnlyVectors | src/backend/mode_gpu.js:480-483 | Only 1-D arrays among the bound arguments change. |
| Binding.MissingArgumentFails | src/backend/mode_gpu.js:466-519 | With fewer arguments than parameters, the first missing one reads as `undefined` and stops the call. |
| Binding.ExtraArgumentsIgnored | src/backend/mode_gpu.js:466 | Arguments past the last parameter never affect binding. |
| Kernel.AutoDimensions | src/backend/mode_gpu.js:161-168 | Without dimensions, an array argument fails with "Unknown dimensions of Array" and a texture supplies its own. Anything else fails. |
| Kernel.DimensionsPersist | src/backend/mode_gpu.js:163-165 | Resolved dimensions stay in `opt` and are used by every later call. |
| Kernel.AutoDimensionsNeedOneArgument | src/backend/mode_gpu.js:156-159 | The arity error arises exactly when dimensions are absent or empty and the argument count is not one. |
| Kernel.OutputRankStaleKey | src/backend/mode_gpu.js:121-178 | Outputs `[2,2,2,2]` and `[2,2,2,3]` get the same key but, outside graphical mode, framebuffers of side 4 and 5. |
| Kernel.ArgumentRankStaleKey | src/backend/mode_gpu.js:107-214 | With hard-coding, arrays measuring `[2,2,2,2]` and `[2,2,2,3]` contribute the same key text but get textures of side 4 and 5. |
| Kernel.RankFourArrays | src/backend/mode_gpu.js:30-54 | Two and three cubes of 2×2×2 zeros measure `[2,2,2,2]` and `[2,2,2,3]`, innermost first. |
| Kernel.FramebufferHoldsAllThreads | src/backend/mode_gpu.js:171 | Outside graphical mode the framebuffer is the least square holding every thread. |
| Kernel.ReadbackHasNoHoles | src/backend/mode_gpu.js:550-553 | Truncation to the thread count never reads past the framebuffer. |
| Kernel.HitReuses | src/backend/mode_gpu.js:190-193 | A hit returns the cached program and leaves the cache unchanged. |
| Kernel.MissAddsOne | src/backend/mode_gpu.js:428 | A successful miss adds exactly one entry, under the key. |
| Kernel.CompileErrorKeepsCache | src/backend/mode_gpu.js:408-417 | A failed compilation fails the call and leaves the cache as it was. |
| Kernel.CacheNeverShrinks | src/backend/mode_gpu.js:428 | No entry is ever removed or replaced. |
| Kernel.CompiledOnce | src/backend/mode_gpu.js:190-193 | After a successful lookup, the next lookup of the same key is a hit on the same program. |
| Kernel.Kernel.constructor | src/backend/mode_gpu.js:151-153 | A kernel starts with the given options and parameter names and an empty program cache. |
| Kernel.Kernel.ResolveDimensions | src/backend/mode_gpu.js:156-169 | Returns the resolved dimensions or the inference error, stores inferred dimensions in `opt`, and leaves the cache alone. |
| Kernel.Kernel.LookupOrCompile | src/backend/mode_gpu.js:190-428 | Returns the cached or newly compiled program, or a compile error, and updates the cache only on a successful miss. |
| Kernel.Kernel.Call | src/backend/mode_gpu.js:155-566 | Specifies the whole call: errors in source order, cache update, argument growth, and a texture, no output or the reshaped readback. |
| Kernel.Kernel.SetDimensions | src/backend/mode_gpu.js:568-571 | Writes `dimensions` only and returns the kernel. |
| Kernel.Kernel.SetDebug | src/backend/mode_gpu.js:573-576 | Writes `debug` only and returns the kernel. |
| Kernel.Kernel.SetGraphical | src/backend/mode_gpu.js:578-581 | Writes `graphical` only and returns the kernel. |
| Kernel.Kernel.SetLoopMaxIterations | src/backend/mode_gpu.js:583-586 | Writes `loopMaxIterations` only and returns the kernel. |
| Kernel.Kernel.SetConstants | src/backend/mode_gpu.js:588-591 | Writes `constants` only and returns the kernel. |
| Kernel.Kernel.SetWraparound | src/backend/mode_gpu.js:593-596 | Writes `wraparound` only and returns the kernel. |
| Kernel.Kernel.SetHardcodeConstants | src/backend/mode_gpu.js:598-601 | Writes `hardcodeConstants` only and returns the kernel. |
| Kernel.Kernel.SetOutputToTexture | src/backend/mode_gpu.js:603-606 | Writes `outputToTexture` only and returns the kernel. |
| Kernel.ModeGpu | src/backend/mode_gpu.js:138-153 | Fails with "Unable to get body of kernel function" iff the text does not start with `function`. Otherwise returns a fresh kernel with an empty cache. |

## Left out

- **WebGL calls.** The model does not cover the WebGL calls themselves: shader objects, buffers, attribute and uniform locations, texture parameters, `texImage2D`, `drawArrays` and `readPixels`. A call's observable answers from the context are the fields of `Gl`.
- **Generated text.** The GLSL source text is not modelled: parameter declarations, constants and the translated kernel body. The kernel body comes from the function builder, which is not part of this model. Only the key under which the program is cached and the integer arithmetic of the fixed helpers are modelled.
- **Floating-point parts of the float codec.**
  - `encode32`'s `log2`/`exp2` exponent search and its retry with a smaller exponent (lines 303-324) are not modelled. The model starts from the exponent and 24-bit significand.
  - `decode32`'s `exp2` sum (lines 289-294) is not modelled.
  - Shader.EncodeDecodeRoundTrip: covers normalised numbers' integer fields only, not subnormals, infinities or NaN.
- **Float32 conversion.** The conversion of uploaded arrays through `Float32Array` (line 485) is not modelled: uploaded data are the JavaScript values, not their bytes.
- **Readback decoding.** The conversion of read-back bytes to floats (line 552) is the `Gl.pixel` function.
- **Shader address arithmetic is float in the source.** The generated shader computes thread indices and addresses in `highp float` (line 237): `indexTo3D` (lines 341-348), `get`'s linear index (line 353) and `main`'s thread index (line 388). The model computes them on unbounded integers. Binary32 holds every integer only up to 2^24 = 16,777,216 (a 4096×4096 output already reaches it), so the lemmas below hold in the source only while indices and products of dimensions stay below that bound.
- Shader.IndexTo3D: exact on integers; in the source only for indices below 2^24.
- Shader.IndexTo3DInRange: exact on integers; in the source only for indices below 2^24.
- Shader.AddressRoundTrip: exact on integers; in the source only for indices below 2^24.
- Shader.CoordRoundTrip: exact on integers; in the source only for linear indices below 2^24.
- Shader.WrappedIndexInRange: exact on integers; in the source only for element counts below 2^24.
- Shader.FragmentTexelAgreement: exact on integers; in the source only for thread indices below 2^24.
- **Non-integer dimensions.** Dimensions are natural numbers in the model (`Dims`, `GPUTexture.dimensions`). The source accepts any number as a dimension: a fractional or negative `dimensions` entry would reach the key text (line 123) and the texture size (line 171). Such inputs are not modelled.
- **`Math.sqrt` precision.** Layout.CeilSqrt: is the exact integer ceiling of the square root. Floating-point rounding of `Math.sqrt` for very large element counts is not modelled.
- Layout.LowerCase: lower-cases ASCII letters only. JavaScript's full Unicode `toLowerCase` is not modelled.
- **Parameter names.** `GPUUtils.getParamNames_fromString` is not part of this model. Its result is passed to `Kernel.ModeGpu`.
- **Constants serialisation.** `JSON.stringify` of the constants is a function parameter, so key properties hold for any serialisation.
- **Debug logging.** Logging to the console in debug mode, and of failing shader source, is not modelled.
- **`ret.mode` and `ret.getCanvas`.** `ret.mode` (lines 608-611) hands the options to `gpu.createKernel` of another backend, which is not part of this model. `ret.getCanvas` (lines 613-615) only returns the GPU object's canvas.
- **Canvas and viewport.** The canvas and viewport sizing (lines 181-183) is not modelled. The model assumes the drawing buffer has the texture size, which those lines ensure, and `Gl.pixel` stands for its contents as `readPixels` (line 551) returns them.
- **Uniforms.** Without hard-coding, the output-dimension and texture-size uniforms are uploaded (lines 457-462). They are not modelled as separate values: the model's binding records each texture's dimensions and size.
- **Textures and units.** The output texture's unit and framebuffer (lines 523-538) are not modelled, and neither is the leak of input textures and vertex buffers on each call. Running out of texture units is not modelled either.
- **Aliasing.** Each argument is a value. The case of the same array passed twice, and growth seen through another reference, are not modelled. Likewise `opt` is owned by the kernel: the caller's own reference to the options object is not modelled.
- Kernel.Kernel.Call: on an array argument whose nesting is uneven or empty (for example `[]`), the shapes follow the model's `Dimensions`. This is the lengths along index 0, as `getDimensions` measures them. Out-of-range reads inside the shader are not modelled.
- Shader.TexelOf: requires a non-negative index and a positive texture width. A negative index (a coordinate below zero without wraparound) or one past the texture (out-of-range reads) is not modelled; GLSL's `/` on negative integers and reads outside a texture are left out.

=== FILE: binding.dfy ===
/**
  The per-parameter argument binding of a kernel call
  (src/backend/mode_gpu.js, lines 466-521): parameter i is bound to texture
  unit i when it is an array (uploaded into a fresh texture) or a GPUTexture
  (bound as it is), to a float uniform when it is a number, and anything else
  stops the call.
*/
module Binding {
  import opened Wrappers
  import opened Values
  import opened Layout

  /** What one parameter ends up bound to. */
  datatype Bound =
    | Scalar(x: real)                                                      // uniform1f
    | Uploaded(unit: nat, dim: seq<nat>, size: seq<nat>, data: seq<Value>) // new texture filled from an array
    | Resident(unit: nat, dim: seq<nat>, size: seq<nat>, texture: TextureHandle)

  /** The values the binding loop accepts: arrays, numbers and textures. */
  predicate Supported(arg: Value)
  {
    arg.Arr? || arg.Num? || arg.Tex?
  }

  /** Whether `flatten` hands back the argument's own array (its first element is not an array). */
  predicate FlattensToItself(arg: Value)
  {
    arg.Arr? && !(|arg.items| > 0 && arg.items[0].Arr?)
  }

  /** The padded dimensions of an array argument: `getDimensions(arg, true)`. */
  function ArrayDim(arg: Value): seq<nat>
    requires arg.Arr?
  {
    PadTo(Dimensions(arg), 3, 1)
  }

  /** The side of the square texture an array argument is uploaded into. */
  function ArraySide(arg: Value): nat
    requires arg.Arr?
  {
    CeilSqrt(Product(ArrayDim(arg)))
  }

  /** The elements uploaded for an array argument: flattened one level, zero-filled to side * side. */
  function UploadData(arg: Value): seq<Value>
    requires arg.Arr?
  {
    PadTo(Flatten(arg.items), ArraySide(arg) * ArraySide(arg), Num(0.0))
  }

  /** The binding of a supported argument to parameter `unit`. */
  function Bind(arg: Value, unit: nat): Bound
    requires Supported(arg)
  {
    match arg
    case Arr(_) => Uploaded(unit, ArrayDim(arg), [ArraySide(arg), ArraySide(arg)], UploadData(arg))
    case Num(x) => Scalar(x)
    case Tex(t) => Resident(unit, t.dimensions, t.size, t.texture)
  }

  /**
    The argument as the caller sees it after binding: a 1-D array has had the
    zero padding pushed onto it, every other value is untouched.
  */
  function Grown(arg: Value): Value
  {
    if FlattensToItself(arg) then Arr(UploadData(arg)) else arg
  }

  /** The arguments after the first `k` parameters have been bound. */
  function GrowPrefix(args: seq<Value>, k: nat): (r: seq<Value>)
    ensures |r| == |args|
  {
    seq(|args|, i requires 0 <= i < |args| => if i < k then Grown(args[i]) else args[i])
  }

  /** The first parameter index below `n` whose argument is not supported, or `n`. */
  function FirstUnsupported(args: seq<Value>, n: nat): (f: nat)
    ensures f <= n
    ensures forall i :: 0 <= i < f ==> Supported(At(args, i))
    ensures f < n ==> !Supported(At(args, f))
  {
    if n == 0 then 0
    else
      var f := FirstUnsupported(args, n - 1);
      if f < n - 1 then f
      else if Supported(At(args, n - 1)) then n
      else n - 1
  }

  /**
    The body of the binding loop for a supported argument (lines 467-517):
    the binding, and the argument as it is left for the caller.
  */
  method BindOne(arg: Value, unit: nat) returns (b: Bound, after: Value)
    requires Supported(arg)
    ensures b == Bind(arg, unit)
    ensures after == Grown(arg)
  {
    after := arg;
    if arg.Arr? {
      b, after := UploadArray(arg, unit);
    } else if arg.Num? {
      b := Scalar(arg.x);
    } else {
      var paramDim := GetDimensions(arg, false);
      assert paramDim.Success?;
      b := Resident(unit, paramDim.value, arg.tex.size, arg.tex.texture);
    }
  }

  /** Lines 468-498: an array argument is flattened, zero-filled and uploaded to a new texture. */
  method UploadArray(arg: Value, unit: nat) returns (b: Bound, after: Value)
    requires arg.Arr?
    ensures b == Bind(arg, unit)
    ensures after == Grown(arg)
  {
    var paramDim := GetDimensions(arg, true);
    assert paramDim == Success(ArrayDim(arg));
    var dim: Dims := ArrayDimIsDims(arg, paramDim.value);
    var paramSize := DimToTexSize(dim);
    assert paramSize == [ArraySide(arg), ArraySide(arg)];
    var paramArray := Flatten(arg.items);
    paramArray := PushUntil(paramArray, paramSize[0] * paramSize[1], Num(0.0));
    assert paramArray == UploadData(arg);
    after := arg;
    if FlattensToItself(arg) {
      // the pushes went into the caller's own array
      after := Arr(paramArray);
    }
    b := Uploaded(unit, dim, paramSize, paramArray);
  }

  /** The padded dimensions of an array are a dimension list (never empty). */
  function ArrayDimIsDims(arg: Value, d: seq<nat>): (r: Dims)
    requires arg.Arr? && d == ArrayDim(arg)
    ensures r == d
  {
    PaddedDimensions(Dimensions(arg));
    d
  }

  /** Lines 466-521 for `n = paramNames.length` parameters. */
  method BindArguments(args: seq<Value>, n: nat) returns (r: Result<seq<Bound>, Error>, argsAfter: seq<Value>)
    ensures var f := FirstUnsupported(args, n);
            && (r.Success? <==> f == n)
            && (r.Success? ==> |r.value| == n && forall i :: 0 <= i < n ==> r.value[i] == Bind(At(args, i), i))
            && (r.Failure? ==> r.error == InputNotSupported(At(args, f)))
            && argsAfter == GrowPrefix(args, f)
  {
    argsAfter := args;
    var bound: seq<Bound> := [];
    for textureCount := 0 to n
      invariant |bound| == textureCount
      invariant forall i :: 0 <= i < textureCount ==> Supported(At(args, i)) && bound[i] == Bind(At(args, i), i)
      invariant argsAfter == GrowPrefix(args, textureCount)
    {
      var arg := At(argsAfter, textureCount);
      assert arg == At(args, textureCount);
      if !Supported(arg) {
        assert FirstUnsupported(args, n) == textureCount;
        return Failure(InputNotSupported(arg)), argsAfter;
      }
      var b, after := BindOne(arg, textureCount);
      if textureCount < |argsAfter| {
        argsAfter := argsAfter[textureCount := after];
      }
      bound := bound + [b];
      assert GrowPrefix(args, textureCount + 1) == argsAfter;
    }
    r := Success(bound);
  }

  // ---------------------------------------------------------------------------
  // What binding does to each kind of argument
  // ---------------------------------------------------------------------------

  /**
    A matrix of `rows` rows of `cols` numbers is uploaded with dimensions
    [cols, rows, 1] into a square texture of side ceil(sqrt(rows * cols)),
    in row-major order and zero-filled; the caller's matrix is left as it was.
  */
  lemma UploadMatrix(v: Value, cols: nat, unit: nat)
    requires IsMatrix(v, cols)
    ensures var b, rows, w := Bind(v, unit), |v.items|, CeilSqrt(|v.items| * cols);
            && b.Uploaded? && b.unit == unit && b.dim == [cols, rows, 1] && b.size == [w, w]
            && |b.data| == w * w && rows * cols <= w * w
            && (forall y, x :: 0 <= y < rows && 0 <= x < cols ==> At(b.data, y * cols + x) == v.items[y].items[x])
            && (forall k :: rows * cols <= k < w * w ==> b.data[k] == Num(0.0))
    ensures Grown(v) == v
  {
    MatrixDimensions(v, cols);
    var rows := |v.items|;
    ProductOfTriple(cols, rows, 1);
    assert cols * rows * 1 == rows * cols;
    var w := ArraySide(v);
    assert w == CeilSqrt(rows * cols);
    MatrixData(v, cols, w * w);
  }

  /** The matrix elements sit in row-major order at the front of the zero-filled buffer. */
  lemma MatrixData(v: Value, cols: nat, len: nat)
    requires IsMatrix(v, cols) && |v.items| * cols <= len
    ensures |Flatten(v.items)| == |v.items| * cols
    ensures forall y, x :: 0 <= y < |v.items| && 0 <= x < cols ==>
              At(PadTo(Flatten(v.items), len, Num(0.0)), y * cols + x) == v.items[y].items[x]
  {
    FlattenMatrix(v, cols);
    var rows := v.items;
    var flat := Flatten(rows);
    assert rows[0].Arr?;
    assert flat == ConcatSpread(rows);
    forall y, x | 0 <= y < |rows| && 0 <= x < cols
      ensures At(PadTo(flat, len, Num(0.0)), y * cols + x) == rows[y].items[x]
    {
      ConcatRowsAt(rows, cols, y, x);
      PadToAt(flat, len, Num(0.0), y * cols + x);
    }
  }

  lemma PadToAt<T>(s: seq<T>, n: nat, fill: T, k: nat)
    requires k < |s|
    ensures PadTo(s, n, fill)[k] == s[k]
  {
    assert PadTo(s, n, fill)[..|s|][k] == s[k];
  }

  /**
    A vector of n numbers is uploaded with dimensions [n, 1, 1], its elements
    first and zeros after them. Because `flatten` returns the caller's own
    array, the zeros are pushed onto that array: afterwards it is the upload
    buffer, of length ceil(sqrt(n))^2, so it has grown (and a later call sees
    a longer vector) exactly when n is not a perfect square.
  */
  lemma UploadVector(v: Value, unit: nat)
    requires IsVector(v)
    ensures var b := Bind(v, unit);
            var n, w := |v.items|, CeilSqrt(|v.items|);
            && b.Uploaded? && b.unit == unit && b.dim == [n, 1, 1] && b.size == [w, w]
            && |b.data| == w * w
            && b.data[..n] == v.items
            && (forall k :: n <= k < w * w ==> b.data[k] == Num(0.0))
            && Grown(v) == Arr(b.data)
            && (|Grown(v).items| == n <==> w * w == n)
  {
    VectorDimensions(v);
    FlattenVector(v);
    var n := |v.items|;
    ProductOfTriple(n, 1, 1);
  }

  lemma ProductOfTriple(a: nat, b: nat, c: nat)
    ensures Product([a, b, c]) == a * b * c
  {
    assert [a, b, c][..2] == [a, b];
    assert [a, b][..1] == [a];
    assert [a][..0] == [];
    assert Product([a]) == a;
    assert Product([a, b]) == a * b;
  }

  /** Only the 1-D arrays among the bound arguments change; everything else is left as it was. */
  lemma GrowOnlyVectors(args: seq<Value>, k: nat)
    ensures forall i :: 0 <= i < |args| ==> GrowPrefix(args, k)[i] == args[i] || (i < k && FlattensToItself(args[i]))
  {
  }

  /**
    The loop runs over the kernel's parameters, not over the arguments: with
    fewer arguments than parameters, the first missing one reads as undefined
    and stops the call.
  */
  lemma MissingArgumentFails(args: seq<Value>, n: nat)
    requires |args| < n
    requires forall i :: 0 <= i < |args| ==> Supported(args[i])
    ensures FirstUnsupported(args, n) == |args|
    ensures At(args, FirstUnsupported(args, n)) == Undefined
  {
  }

  /** Arguments past the last parameter are never inspected. */
  lemma {:induction false} ExtraArgumentsIgnored(args: seq<Value>, extra: seq<Value>, n: nat)
    requires n <= |args|
    ensures FirstUnsupported(args + extra, n) == FirstUnsupported(args, n)
  {
    if n > 0 {
      ExtraArgumentsIgnored(args, extra, n - 1);
      assert At(args + extra, n - 1) == At(args, n - 1);
    }
  }
}

=== FILE: cache_key.dfy ===
/**
  `getProgramCacheKey` (src/backend/mode_gpu.js, lines 102-136): the string
  under which a compiled program is cached. It is the argument-type words
  (each followed by its padded dimensions when constants are hard-coded) and,
  after a `-`, the flag suffix for wraparound, hard-coding (with the output
  dimensions) and the serialised constants.
*/
module CacheKey {
  import opened Wrappers
  import opened Values
  import opened Layout
  import opened KernelOptions

  // ---------------------------------------------------------------------------
  // Text of numbers and dimension triples
  // ---------------------------------------------------------------------------

  function Digit(d: nat): char
    requires d < 10
  {
    (48 + d) as char
  }

  /** The decimal text `'' + n` gives for a natural number. */
  function NatToString(n: nat): (s: string)
    ensures |s| >= 1
    ensures forall i :: 0 <= i < |s| ==> '0' <= s[i] <= '9'
    ensures n < 10 <==> |s| == 1
  {
    if n < 10 then [Digit(n)] else NatToString(n / 10) + [Digit(n % 10)]
  }

  /** Different numbers print differently: the text determines the number. */
  lemma {:induction false} NatToStringInjective(n: nat, m: nat)
    requires NatToString(n) == NatToString(m)
    ensures n == m
  {
    var s := NatToString(n);
    if n >= 10 && m >= 10 {
      var p, q := NatToString(n / 10), NatToString(m / 10);
      assert s == p + [Digit(n % 10)] && s == q + [Digit(m % 10)];
      assert p == s[..|s| - 1] == q;
      assert Digit(n % 10) == s[|s| - 1] == Digit(m % 10);
      NatToStringInjective(n / 10, m / 10);
    } else if n < 10 && m < 10 {
      assert Digit(n) == s[0] == Digit(m);
    }
  }

  lemma NumberIsNotUndefined(n: nat)
    ensures NatToString(n) != "undefined"
  {
    assert "undefined"[0] == 'u';
    assert '0' <= NatToString(n)[0] <= '9';
  }

  /** Entry i of a dimension list, or None past its end (where `d[i]` reads undefined). */
  function Entry(d: seq<nat>, i: nat): Option<nat>
  {
    if i < |d| then Some(d[i]) else None
  }

  /** `'' + d[i]`: the entry's text, or "undefined" past the end of the array. */
  function EntryText(d: seq<nat>, i: nat): (s: string)
    ensures ']' !in s && '-' !in s && '[' !in s && ',' !in s
  {
    if i < |d| then NatToString(d[i]) else "undefined"
  }

  /** Equal entry texts come from equal entries: both missing, or both present and equal. */
  lemma EntryTextInjective(d1: seq<nat>, d2: seq<nat>, i: nat)
    requires EntryText(d1, i) == EntryText(d2, i)
    ensures Entry(d1, i) == Entry(d2, i)
  {
    var t := EntryText(d1, i);
    if i < |d1| && i < |d2| {
      NatToStringInjective(d1[i], d2[i]);
    } else if i < |d1| {
      NumberIsNotUndefined(d1[i]);
      assert false;
    } else if i < |d2| {
      NumberIsNotUndefined(d2[i]);
      assert false;
    }
  }

  /** The first three entries of two dimension lists agree, missing ones included. */
  ghost predicate SameTriple(d1: seq<nat>, d2: seq<nat>)
  {
    forall i :: 0 <= i < 3 ==> Entry(d1, i) == Entry(d2, i)
  }

  /** `'[' + d[0] + ',' + d[1] + ',' + d[2] + ']'`. */
  function TripleText(d: seq<nat>): (s: string)
    ensures |s| >= 2 && s[0] == '[' && s[|s| - 1] == ']'
    ensures forall i :: 0 <= i < |s| - 1 ==> s[i] != ']'
    ensures '-' !in s
  {
    var s := "[" + EntryText(d, 0) + "," + EntryText(d, 1) + "," + EntryText(d, 2) + "]";
    assert s[..|s| - 1] == "[" + EntryText(d, 0) + "," + EntryText(d, 1) + "," + EntryText(d, 2);
    assert forall i :: 0 <= i < |s| - 1 ==> s[i] == s[..|s| - 1][i];
    s
  }

  // ---------------------------------------------------------------------------
  // The key
  // ---------------------------------------------------------------------------

  /** The key text one argument contributes. */
  function ArgKey(arg: Value, hardcode: bool): (s: string)
    ensures |s| >= 1 && s[0] == TypeWord(GetArgumentType(arg))[0]
    ensures '-' !in s
  {
    TypeWord(GetArgumentType(arg)) + (if hardcode && ShapeKeyed(arg) then TripleText(KeyedShape(arg)) else "")
  }

  /** The argument part of the key: the arguments' texts in order. */
  function ArgsKey(args: seq<Value>, hardcode: bool): (s: string)
    ensures '-' !in s
    ensures |args| > 0 ==> |s| >= 1 && s[0] == TypeWord(GetArgumentType(args[0]))[0]
    ensures |args| == 0 ==> s == ""
  {
    if |args| == 0 then "" else ArgKey(args[0], hardcode) + ArgsKey(args[1..], hardcode)
  }

  /** `specialFlags`: wraparound, hard-coding with the unpadded output dimensions, and the constants. */
  function SpecialFlags(opt: Options, outputDim: seq<nat>, stringify: Constants -> string): string
  {
    (if opt.wraparound then "Wraparound" else "")
    + (if opt.hardcodeConstants then "Hardcode" + TripleText(outputDim) else "")
    + (if opt.constants.Some? then "Constants" + stringify(opt.constants.value) else "")
  }

  /** The cache key: the argument part, then `-` and the flags when there are any. */
  function ProgramCacheKey(args: seq<Value>, opt: Options, outputDim: seq<nat>, stringify: Constants -> string): string
  {
    var flags := SpecialFlags(opt, outputDim, stringify);
    var key := ArgsKey(args, opt.hardcodeConstants);
    if flags == "" then key else key + "-" + flags
  }

  lemma {:induction false} ArgsKeySnoc(args: seq<Value>, arg: Value, hardcode: bool)
    ensures ArgsKey(args + [arg], hardcode) == ArgsKey(args, hardcode) + ArgKey(arg, hardcode)
  {
    if |args| == 0 {
      assert args + [arg] == [arg];
      assert ArgsKey([arg], hardcode) == ArgKey(arg, hardcode) + ArgsKey([], hardcode);
    } else {
      assert (args + [arg])[0] == args[0];
      assert (args + [arg])[1..] == args[1..] + [arg];
      ArgsKeySnoc(args[1..], arg, hardcode);
      Associative(ArgKey(args[0], hardcode), ArgsKey(args[1..], hardcode), ArgKey(arg, hardcode));
    }
  }

  /** `getProgramCacheKey(args, opt, outputDim)`, with `JSON.stringify` passed in as `stringify`. */
  method GetProgramCacheKey(args: seq<Value>, opt: Options, outputDim: seq<nat>, stringify: Constants -> string)
    returns (key: string)
    ensures key == ProgramCacheKey(args, opt, outputDim, stringify)
  {
    key := "";
    for i := 0 to |args|
      invariant key == ArgsKey(args[..i], opt.hardcodeConstants)
    {
      TakeSnoc(args, i);
      ArgsKeySnoc(args[..i], args[i], opt.hardcodeConstants);
      var part := ArgKeyOf(args[i], opt.hardcodeConstants);
      key := key + part;
    }
    assert args[..|args|] == args;

    var specialFlags := BuildSpecialFlags(opt, outputDim, stringify);
    if specialFlags != "" {
      key := key + "-" + specialFlags;
    }
  }

  /** Lines 105-113: the type word of one argument and, when hard-coding, its padded dimensions. */
  method ArgKeyOf(arg: Value, hardcode: bool) returns (s: string)
    ensures s == ArgKey(arg, hardcode)
  {
    var argType := GetArgumentType(arg);
    s := TypeWord(argType);
    if hardcode && (argType == ArrayType || argType == TextureType) {
      var dimensions := GetDimensions(arg, true);
      assert dimensions.Success?;
      s := s + TripleText(dimensions.value);
    } else {
      assert s + "" == s;
    }
  }

  /** Lines 116-129: the flag suffix, built up word by word. */
  method BuildSpecialFlags(opt: Options, outputDim: seq<nat>, stringify: Constants -> string)
    returns (specialFlags: string)
    ensures specialFlags == SpecialFlags(opt, outputDim, stringify)
  {
    ghost var w := if opt.wraparound then "Wraparound" else "";
    ghost var h := if opt.hardcodeConstants then "Hardcode" + TripleText(outputDim) else "";
    ghost var c := if opt.constants.Some? then "Constants" + stringify(opt.constants.value) else "";
    specialFlags := "";
    if opt.wraparound {
      specialFlags := specialFlags + "Wraparound";
    }
    assert specialFlags == w;
    if opt.hardcodeConstants {
      specialFlags := specialFlags + "Hardcode";
      specialFlags := specialFlags + TripleText(outputDim);
      Associative(w, "Hardcode", TripleText(outputDim));
    } else {
      assert specialFlags == w + h;
    }
    if opt.constants.Some? {
      specialFlags := specialFlags + "Constants";
      specialFlags := specialFlags + stringify(opt.constants.value);
      Associative(w + h, "Constants", stringify(opt.constants.value));
    } else {
      assert specialFlags == w + h + c;
    }
  }

  // ---------------------------------------------------------------------------
  // What the key depends on
  // ---------------------------------------------------------------------------

  /** The concatenated type words of a sequence of argument kinds. */
  function TypeWords(ts: seq<ArgType>): string
  {
    if |ts| == 0 then "" else TypeWord(ts[0]) + TypeWords(ts[1..])
  }

  /** Without hard-coding the argument part is exactly the type words: shapes do not enter. */
  lemma {:induction false} ArgsKeyIsTypeWords(args: seq<Value>)
    ensures ArgsKey(args, false) == TypeWords(ArgTypes(args))
  {
    if |args| > 0 {
      ArgsKeyIsTypeWords(args[1..]);
      assert ArgTypes(args)[1..] == ArgTypes(args[1..]);
    }
  }

  /**
    Without `hardcodeConstants` the key depends on the arguments only through
    their kinds, and not on the output dimensions: two calls whose arguments
    have the same kinds share a key whatever their shapes.
  */
  lemma KeyIgnoresShapes(args1: seq<Value>, args2: seq<Value>, opt: Options, out1: seq<nat>, out2: seq<nat>,
                         stringify: Constants -> string)
    requires !opt.hardcodeConstants
    requires ArgTypes(args1) == ArgTypes(args2)
    ensures ProgramCacheKey(args1, opt, out1, stringify) == ProgramCacheKey(args2, opt, out2, stringify)
  {
    ArgsKeyIsTypeWords(args1);
    ArgsKeyIsTypeWords(args2);
  }

  /** With no flag set the key is the concatenated type words and holds no `-`. */
  lemma PlainKey(args: seq<Value>, opt: Options, outputDim: seq<nat>, stringify: Constants -> string)
    requires !opt.wraparound && !opt.hardcodeConstants && opt.constants.None?
    ensures ProgramCacheKey(args, opt, outputDim, stringify) == TypeWords(ArgTypes(args))
    ensures '-' !in ProgramCacheKey(args, opt, outputDim, stringify)
  {
    ArgsKeyIsTypeWords(args);
  }

  lemma TakeSnoc<T>(s: seq<T>, i: nat)
    requires i < |s|
    ensures s[..i + 1] == s[..i] + [s[i]]
  {
  }

  lemma Associative<T>(a: seq<T>, b: seq<T>, c: seq<T>)
    ensures (a + b) + c == a + (b + c)
  {
  }

  /** Position of the first occurrence of `c` in `s`, or `|s|` when there is none. */
  function IndexOf(s: string, c: char): (k: nat)
    ensures k <= |s|
  {
    if |s| == 0 then 0 else if s[0] == c then 0 else 1 + IndexOf(s[1..], c)
  }

  /** In `t + r`, where `c` occurs in `t` only as its last character, the first `c` ends `t`. */
  lemma {:induction false} IndexOfAfterPrefix(t: string, r: string, c: char)
    requires |t| >= 1 && t[|t| - 1] == c
    requires forall i :: 0 <= i < |t| - 1 ==> t[i] != c
    ensures IndexOf(t + r, c) == |t| - 1
  {
    if |t| > 1 {
      assert (t + r)[1..] == t[1..] + r;
      IndexOfAfterPrefix(t[1..], r, c);
    }
  }

  /** In `a + d`, where `a` holds no `c` and `d` is empty or starts with `c`, the first `c` ends `a`. */
  lemma {:induction false} IndexOfAfterFree(a: string, d: string, c: char)
    requires c !in a
    requires d == [] || d[0] == c
    ensures IndexOf(a + d, c) == |a|
  {
    if |a| == 0 {
      assert a + d == d;
    } else {
      assert (a + d)[0] == a[0];
      assert (a + d)[1..] == a[1..] + d;
      IndexOfAfterFree(a[1..], d, c);
    }
  }

  /** Splitting at the first `c`: a part without `c` followed by nothing or by a `c`. */
  lemma SplitAtFirst(c: char, a1: string, d1: string, a2: string, d2: string)
    requires c !in a1 && c !in a2
    requires d1 == [] || d1[0] == c
    requires d2 == [] || d2[0] == c
    requires a1 + d1 == a2 + d2
    ensures a1 == a2 && d1 == d2
  {
    var s := a1 + d1;
    IndexOfAfterFree(a1, d1, c);
    IndexOfAfterFree(a2, d2, c);
    assert a1 == s[..|a1|] == a2;
    assert d1 == s[|a1|..] == d2;
  }

  /** Two bracketed triples followed by arbitrary text: the first `]` ends each, so they coincide. */
  lemma SplitAtClose(d1: seq<nat>, r1: string, d2: seq<nat>, r2: string)
    requires TripleText(d1) + r1 == TripleText(d2) + r2
    ensures TripleText(d1) == TripleText(d2) && r1 == r2
  {
    var t1, t2 := TripleText(d1), TripleText(d2);
    var s := t1 + r1;
    IndexOfAfterPrefix(t1, r1, ']');
    IndexOfAfterPrefix(t2, r2, ']');
    assert t1 == s[..|t1|] == t2;
    assert r1 == s[|t1|..] == r2;
  }

  lemma TripleShape(d: seq<nat>)
    ensures TripleText(d) == "[" + (EntryText(d, 0) + ("," + (EntryText(d, 1) + ("," + (EntryText(d, 2) + "]")))))
  {
    var e0, e1, e2 := EntryText(d, 0), EntryText(d, 1), EntryText(d, 2);
    assert "[" + e0 + "," + e1 + "," + e2 + "]" == "[" + (e0 + ("," + (e1 + ("," + (e2 + "]")))));
  }

  /** The bracketed text of a triple determines its three entries. */
  lemma TripleTextInjective(d1: seq<nat>, d2: seq<nat>)
    requires TripleText(d1) == TripleText(d2)
    ensures SameTriple(d1, d2)
  {
    TripleShape(d1);
    TripleShape(d2);
    PeelTriple(EntryText(d1, 0), EntryText(d1, 1), EntryText(d1, 2), EntryText(d2, 0), EntryText(d2, 1), EntryText(d2, 2));
    EntryTextInjective(d1, d2, 0);
    EntryTextInjective(d1, d2, 1);
    EntryTextInjective(d1, d2, 2);
  }

  /** `[a0,a1,a2]` with comma-free parts determines the parts. */
  lemma PeelTriple(a0: string, a1: string, a2: string, b0: string, b1: string, b2: string)
    requires ',' !in a0 && ',' !in a1 && ',' !in b0 && ',' !in b1
    requires "[" + (a0 + ("," + (a1 + ("," + (a2 + "]"))))) == "[" + (b0 + ("," + (b1 + ("," + (b2 + "]")))))
    ensures a0 == b0 && a1 == b1 && a2 == b2
  {
    var u1, u2 := a2 + "]", b2 + "]";
    var t1, t2 := a1 + ("," + u1), b1 + ("," + u2);
    var s := "[" + (a0 + ("," + t1));
    assert s[1..] == a0 + ("," + t1);
    assert s[1..] == b0 + ("," + t2);
    SplitAtFirst(',', a0, "," + t1, b0, "," + t2);
    assert t1 == ("," + t1)[1..] == ("," + t2)[1..] == t2;
    SplitAtFirst(',', a1, "," + u1, b1, "," + u2);
    assert u1 == ("," + u1)[1..] == ("," + u2)[1..] == u2;
    assert a2 == u1[..|u1| - 1] == b2;
  }

  /** Whether hard-coding puts this argument's padded shape into the key. */
  predicate ShapeKeyed(arg: Value)
  {
    GetArgumentType(arg) == ArrayType || GetArgumentType(arg) == TextureType
  }

  /** The shape the key records for an array or texture argument: its dimensions padded with 1 to three. */
  function KeyedShape(arg: Value): seq<nat>
    requires ShapeKeyed(arg)
  {
    PadTo(Dimensions(arg), 3, 1)
  }

  /** Argument by argument, every array or texture of the first list has the keyed shape of its partner. */
  ghost predicate SameKeyedShapes(args1: seq<Value>, args2: seq<Value>)
  {
    |args1| == |args2| &&
    forall k :: 0 <= k < |args1| && ShapeKeyed(args1[k]) ==>
      ShapeKeyed(args2[k]) && SameTriple(KeyedShape(args1[k]), KeyedShape(args2[k]))
  }

  /**
    The argument part determines the kinds of all arguments, and with
    hard-coding also the first three padded dimensions of every array and
    texture.
  */
  lemma {:induction false} ArgsKeyDeterminesTypes(args1: seq<Value>, args2: seq<Value>, hardcode: bool)
    requires ArgsKey(args1, hardcode) == ArgsKey(args2, hardcode)
    ensures ArgTypes(args1) == ArgTypes(args2)
    ensures hardcode ==> SameKeyedShapes(args1, args2)
  {
    if |args1| > 0 && |args2| > 0 {
      ArgsKeyHead(args1, args2, hardcode);
      ArgsKeyDeterminesTypes(args1[1..], args2[1..], hardcode);
      assert ArgTypes(args1) == [GetArgumentType(args1[0])] + ArgTypes(args1[1..]);
      assert ArgTypes(args2) == [GetArgumentType(args2[0])] + ArgTypes(args2[1..]);
      if hardcode {
        forall k | 0 <= k < |args1| && ShapeKeyed(args1[k])
          ensures ShapeKeyed(args2[k]) && SameTriple(KeyedShape(args1[k]), KeyedShape(args2[k]))
        {
          if k > 0 {
            assert args1[k] == args1[1..][k - 1];
            assert args2[k] == args2[1..][k - 1];
          }
        }
      }
    }
  }

  /** Equal argument parts start with the same kind and continue with equal argument parts. */
  lemma ArgsKeyHead(args1: seq<Value>, args2: seq<Value>, hardcode: bool)
    requires |args1| > 0 && |args2| > 0
    requires ArgsKey(args1, hardcode) == ArgsKey(args2, hardcode)
    ensures GetArgumentType(args1[0]) == GetArgumentType(args2[0])
    ensures ArgsKey(args1[1..], hardcode) == ArgsKey(args2[1..], hardcode)
    ensures hardcode && ShapeKeyed(args1[0]) ==>
              ShapeKeyed(args2[0]) && SameTriple(KeyedShape(args1[0]), KeyedShape(args2[0]))
  {
    var t1, t2 := GetArgumentType(args1[0]), GetArgumentType(args2[0]);
    TypeWordsPrefixFree(t1, t2);
    var w := TypeWord(t1);
    var r1, r2 := ArgsKey(args1[1..], hardcode), ArgsKey(args2[1..], hardcode);
    var s := ArgsKey(args1, hardcode);
    var k1, k2 := ArgKey(args1[0], hardcode), ArgKey(args2[0], hardcode);
    assert s == k1 + r1 == k2 + r2;
    assert s[0] == k1[0] == TypeWord(t1)[0];
    assert s[0] == k2[0] == TypeWord(t2)[0];
    assert t1 == t2;
    if hardcode && ShapeKeyed(args1[0]) {
      var p1, p2 := KeyedShape(args1[0]), KeyedShape(args2[0]);
      Associative(w, TripleText(p1), r1);
      Associative(w, TripleText(p2), r2);
      assert TripleText(p1) + r1 == s[|w|..] == TripleText(p2) + r2;
      SplitAtClose(p1, r1, p2, r2);
      TripleTextInjective(p1, p2);
    } else {
      assert k1 == w + "" == w;
      assert k2 == w + "" == w;
      assert r1 == s[|w|..] == r2;
    }
  }

  /**
    The flag suffix determines which flags were set: wraparound, hard-coding
    and the presence of constants.
  */
  lemma FlagsDetermineOptions(opt1: Options, out1: seq<nat>, opt2: Options, out2: seq<nat>, stringify: Constants -> string)
    requires SpecialFlags(opt1, out1, stringify) == SpecialFlags(opt2, out2, stringify)
    ensures opt1.wraparound == opt2.wraparound
    ensures opt1.hardcodeConstants == opt2.hardcodeConstants
    ensures opt1.constants.Some? == opt2.constants.Some?
    ensures opt1.hardcodeConstants ==> SameTriple(out1, out2)
    ensures opt1.constants.Some? ==> stringify(opt1.constants.value) == stringify(opt2.constants.value)
  {
    var s := SpecialFlags(opt1, out1, stringify);
    var g1 := HardcodeAndConstants(opt1, out1, stringify);
    var g2 := HardcodeAndConstants(opt2, out2, stringify);
    FlagsStartWith(opt1, out1, stringify);
    FlagsStartWith(opt2, out2, stringify);
    assert opt1.wraparound == opt2.wraparound;
    var w := if opt1.wraparound then "Wraparound" else "";
    assert g1 == s[|w|..] == g2;
    var c1 := if opt1.constants.Some? then "Constants" + stringify(opt1.constants.value) else "";
    var c2 := if opt2.constants.Some? then "Constants" + stringify(opt2.constants.value) else "";
    assert opt1.hardcodeConstants == opt2.hardcodeConstants;
    if opt1.hardcodeConstants {
      Associative("Hardcode", TripleText(out1), c1);
      Associative("Hardcode", TripleText(out2), c2);
      assert TripleText(out1) + c1 == g1[8..] == TripleText(out2) + c2;
      SplitAtClose(out1, c1, out2, c2);
      TripleTextInjective(out1, out2);
    }
    assert c1 == c2;
    if opt1.constants.Some? {
      assert stringify(opt1.constants.value) == c1[9..] == c2[9..] == stringify(opt2.constants.value);
    }
  }

  /** The flags after the wraparound word. */
  function HardcodeAndConstants(opt: Options, outputDim: seq<nat>, stringify: Constants -> string): string
  {
    (if opt.hardcodeConstants then "Hardcode" + TripleText(outputDim) else "")
    + (if opt.constants.Some? then "Constants" + stringify(opt.constants.value) else "")
  }

  /** Each flag word starts with a capital no later word starts with. */
  lemma FlagsStartWith(opt: Options, outputDim: seq<nat>, stringify: Constants -> string)
    ensures var s := SpecialFlags(opt, outputDim, stringify);
            s == (if opt.wraparound then "Wraparound" else "") + HardcodeAndConstants(opt, outputDim, stringify)
            && (opt.wraparound <==> |s| > 0 && s[0] == 'W')
    ensures var g := HardcodeAndConstants(opt, outputDim, stringify);
            (opt.hardcodeConstants <==> |g| > 0 && g[0] == 'H')
            && (!opt.hardcodeConstants ==> (opt.constants.Some? <==> |g| > 0))
  {
    var w := if opt.wraparound then "Wraparound" else "";
    var h := if opt.hardcodeConstants then "Hardcode" + TripleText(outputDim) else "";
    var c := if opt.constants.Some? then "Constants" + stringify(opt.constants.value) else "";
    var g := HardcodeAndConstants(opt, outputDim, stringify);
    var s := SpecialFlags(opt, outputDim, stringify);
    assert g == h + c;
    assert s == w + h + c;
    Associative(w, h, c);
    assert s == w + g;
    if opt.hardcodeConstants {
      assert g[0] == h[0] == 'H';
    } else {
      assert g == c;
      assert |g| > 0 ==> g[0] == 'C';
    }
    if opt.wraparound {
      assert s[0] == 'W';
    } else {
      assert s == g;
    }
  }

  /**
    Two calls share a cache key only if their arguments have the same kinds
    and the same wraparound, hard-coding and constants-presence flags; with
    hard-coding also the same first three padded dimensions of every array
    and texture argument and the same first three output dimensions; and
    with constants the same constants text.
  */
  lemma SameKeySameSignature(args1: seq<Value>, opt1: Options, out1: seq<nat>,
                             args2: seq<Value>, opt2: Options, out2: seq<nat>,
                             stringify: Constants -> string)
    requires ProgramCacheKey(args1, opt1, out1, stringify) == ProgramCacheKey(args2, opt2, out2, stringify)
    ensures ArgTypes(args1) == ArgTypes(args2)
    ensures opt1.wraparound == opt2.wraparound
    ensures opt1.hardcodeConstants == opt2.hardcodeConstants
    ensures opt1.constants.Some? == opt2.constants.Some?
    ensures opt1.hardcodeConstants ==> SameKeyedShapes(args1, args2) && SameTriple(out1, out2)
    ensures opt1.constants.Some? ==> stringify(opt1.constants.value) == stringify(opt2.constants.value)
  {
    var f1, f2 := SpecialFlags(opt1, out1, stringify), SpecialFlags(opt2, out2, stringify);
    var a1, a2 := ArgsKey(args1, opt1.hardcodeConstants), ArgsKey(args2, opt2.hardcodeConstants);
    var d1 := if f1 == "" then "" else "-" + f1;
    var d2 := if f2 == "" then "" else "-" + f2;
    Associative(a1, "-", f1);
    Associative(a2, "-", f2);
    SplitAtFirst('-', a1, d1, a2, d2);
    if f1 == "" || f2 == "" {
      assert f1 == "" && f2 == "";
      assert !opt1.wraparound && !opt1.hardcodeConstants && opt1.constants.None?;
      assert !opt2.wraparound && !opt2.hardcodeConstants && opt2.constants.None?;
    } else {
      assert f1 == d1[1..] == d2[1..] == f2;
      FlagsDetermineOptions(opt1, out1, opt2, out2, stringify);
    }
    ArgsKeyDeterminesTypes(args1, args2, opt1.hardcodeConstants);
  }

  /** Turning `hardcodeConstants` on or off always yields a different key: a separate cache entry. */
  lemma HardcodeSeparatesKeys(args1: seq<Value>, args2: seq<Value>, opt: Options, out1: seq<nat>, out2: seq<nat>,
                              stringify: Constants -> string)
    ensures ProgramCacheKey(args1, opt.(hardcodeConstants := false), out1, stringify)
            != ProgramCacheKey(args2, opt.(hardcodeConstants := true), out2, stringify)
  {
    if ProgramCacheKey(args1, opt.(hardcodeConstants := false), out1, stringify)
       == ProgramCacheKey(args2, opt.(hardcodeConstants := true), out2, stringify) {
      SameKeySameSignature(args1, opt.(hardcodeConstants := false), out1,
                           args2, opt.(hardcodeConstants := true), out2, stringify);
    }
  }

  // ---------------------------------------------------------------------------
  // What the key leaves out although the generated program depends on it
  // ---------------------------------------------------------------------------

  /**
    `graphical`, `loopMaxIterations`, `debug` and `outputToTexture` never enter
    the key, although `graphical` selects `outputToColor` (line 372) and
    `loopMaxIterations` sets `LOOP_MAX` (line 256) in the compiled program: a
    program cached before one of them changes is reused after the change.
  */
  lemma KeyIgnoresUnkeyedOptions(args: seq<Value>, opt: Options, outputDim: seq<nat>, stringify: Constants -> string,
                                 graphical: bool, loopMax: Option<int>, debug: bool, outputToTexture: bool)
    ensures ProgramCacheKey(args, opt, outputDim, stringify)
            == ProgramCacheKey(args, opt.(graphical := graphical, loopMaxIterations := loopMax,
                                          debug := debug, outputToTexture := outputToTexture), outputDim, stringify)
  {
  }

  /** A concrete stale pair: the same key for loop limits 100 and 5, which compile different `LOOP_MAX`. */
  lemma LoopLimitStaleKey(args: seq<Value>, opt: Options, outputDim: seq<nat>, stringify: Constants -> string)
    ensures ProgramCacheKey(args, opt.(loopMaxIterations := None), outputDim, stringify)
            == ProgramCacheKey(args, opt.(loopMaxIterations := Some(5)), outputDim, stringify)
    ensures LoopMax(opt.(loopMaxIterations := None)) != LoopMax(opt.(loopMaxIterations := Some(5)))
  {
  }

  /** Two argument lists that agree except for the values of numbers. */
  ghost predicate DifferOnlyInNumbers(args1: seq<Value>, args2: seq<Value>)
  {
    && |args1| == |args2|
    && forall i :: 0 <= i < |args1| ==> args1[i] == args2[i] || (args1[i].Num? && args2[i].Num?)
  }

  /**
    Even with `hardcodeConstants` set, where the value of a number argument is
    compiled into the program (line 217), the key does not depend on that value.
  */
  lemma {:induction false} KeyIgnoresNumberValues(args1: seq<Value>, args2: seq<Value>, opt: Options, outputDim: seq<nat>,
                                                  stringify: Constants -> string)
    requires DifferOnlyInNumbers(args1, args2)
    ensures ProgramCacheKey(args1, opt, outputDim, stringify) == ProgramCacheKey(args2, opt, outputDim, stringify)
  {
    ArgsKeyIgnoresNumbers(args1, args2, opt.hardcodeConstants);
  }

  lemma {:induction false} ArgsKeyIgnoresNumbers(args1: seq<Value>, args2: seq<Value>, hardcode: bool)
    requires DifferOnlyInNumbers(args1, args2)
    ensures ArgsKey(args1, hardcode) == ArgsKey(args2, hardcode)
  {
    if |args1| > 0 {
      ArgsKeyIgnoresNumbers(args1[1..], args2[1..], hardcode);
      assert ArgKey(args1[0], hardcode) == ArgKey(args2[0], hardcode);
    }
  }
}

=== FILE: kernel.dfy ===
/**
  A kernel built by the WebGL backend (`GPU.prototype._mode_gpu`,
  src/backend/mode_gpu.js lines 138-617): a callable that owns the options
  object `opt` and a program cache, with fluent setters for the options.

  A call resolves the output dimensions (inferring them from a lone texture
  argument and keeping them in `opt`), sizes the framebuffer, looks the
  program up by its cache key and compiles it on a miss, binds one argument
  per kernel parameter, and then returns a texture, nothing (graphical mode),
  or the readback reshaped to the output dimensions.

  The WebGL context is replaced by a `Gl` record that answers the questions
  the backend asks it during one call.
*/
module Kernel {
  import opened Wrappers
  import opened Values
  import opened Layout
  import opened KernelOptions
  import opened CacheKey
  import opened Binding
  import opened Readback

  /** A linked WebGL program, known only by identity. */
  type ProgramId = nat

  /**
    What the GL context answers during one call: whether the vertex and
    fragment shaders compile, the program and the output texture it creates,
    and the float the readback decodes at each texel index.
  */
  datatype Gl = Gl(
    vertexCompiles: bool,
    fragmentCompiles: bool,
    newProgram: ProgramId,
    newTexture: TextureHandle,
    pixel: nat -> real)

  // ---------------------------------------------------------------------------
  // The specification of one call
  // ---------------------------------------------------------------------------

  /**
    Lines 156-169: the set dimensions when there are any; otherwise those of
    the lone argument, which only works for a texture (an array fails because
    the type word, not the array, is handed to `getDimensions`).
  */
  function ResolvedDimensions(opt: Options, args: seq<Value>): Result<Dims, Error>
  {
    if opt.dimensions.Some? && |opt.dimensions.value| > 0 then Success(opt.dimensions.value)
    else if |args| != 1 then Failure(AutoDimensionsArity(|args|))
    else match args[0]
      case Arr(_) => Failure(UnknownDimensions(Str(TypeWord(ArrayType))))
      case Tex(t) => Success(t.dimensions)
      case _ => Failure(AutoDimensionsUnsupported(GetArgumentType(args[0])))
  }

  /** `opt` once the dimensions are resolved: inferred dimensions are stored in it. */
  function OptionsAfter(opt: Options, args: seq<Value>): Options
  {
    var d := ResolvedDimensions(opt, args);
    if d.Success? then opt.(dimensions := Some(d.value)) else opt
  }

  /**
    Lines 171-178: the framebuffer size: the square of side ceil(sqrt(n)) for
    n threads, or in graphical mode the two dimensions themselves, which must
    be exactly two.
  */
  function FramebufferSize(opt: Options, d: Dims): Result<seq<nat>, Error>
  {
    if !opt.graphical then Success([CeilSqrt(Product(d)), CeilSqrt(Product(d))])
    else if |d| != 2 then Failure(GraphicalDimensions(|d|))
    else Success(d)
  }

  /** What a call has established before it touches the program cache: dimensions and framebuffer size. */
  function Prepare(opt: Options, args: seq<Value>): Result<(Dims, seq<nat>), Error>
  {
    var d :- ResolvedDimensions(opt, args);
    var texSize :- FramebufferSize(opt, d);
    Success((d, texSize))
  }

  /** Lines 190-193 and 400-428: the cached program, or a freshly compiled one on a miss. */
  function Lookup(cache: map<string, ProgramId>, key: string, gl: Gl): Result<ProgramId, Error>
  {
    if key in cache then Success(cache[key])
    else if !gl.vertexCompiles then Failure(VertexShaderCompile)
    else if !gl.fragmentCompiles then Failure(FragmentShaderCompile)
    else Success(gl.newProgram)
  }

  /** The program cache after the lookup: a successful compilation is stored under its key. */
  function CacheAfter(cache: map<string, ProgramId>, key: string, gl: Gl): map<string, ProgramId>
  {
    if key !in cache && Lookup(cache, key, gl).Success? then cache[key := gl.newProgram] else cache
  }

  /** Lines 551-552: the readback decoded to one float per texel of a `texSize` framebuffer. */
  function Framebuffer(gl: Gl, texSize: seq<nat>): seq<Value>
    requires |texSize| == 2
  {
    seq(texSize[0] * texSize[1], k requires 0 <= k => Num(gl.pixel(k)))
  }

  // ---------------------------------------------------------------------------
  // Properties of the specification
  // ---------------------------------------------------------------------------

  /**
    Auto-dimensions from an array argument never succeed (line 163 passes the
    type word to `getDimensions`), and from a texture they are the texture's.
  */
  lemma AutoDimensions(opt: Options, arg: Value)
    requires opt.dimensions.None? || opt.dimensions == Some([])
    ensures arg.Arr? ==> ResolvedDimensions(opt, [arg]) == Failure(UnknownDimensions(Str("Array")))
    ensures arg.Tex? ==> ResolvedDimensions(opt, [arg]) == Success(arg.tex.dimensions)
    ensures !arg.Arr? && !arg.Tex? ==> ResolvedDimensions(opt, [arg]).Failure?
  {
  }

  /**
    Inferred dimensions persist: once a call has resolved them, every later
    call uses them whatever its arguments, and resolving again changes nothing.
  */
  lemma DimensionsPersist(opt: Options, args: seq<Value>, later: seq<Value>)
    requires ResolvedDimensions(opt, args).Success?
    ensures ResolvedDimensions(OptionsAfter(opt, args), later) == ResolvedDimensions(opt, args)
    ensures OptionsAfter(OptionsAfter(opt, args), later) == OptionsAfter(opt, args)
  {
  }

  /**
    Without set dimensions (absent, or an empty list, which the
    `length === 0` test treats as unset) only a single argument can supply
    them: the arity error arises exactly then.
  */
  lemma AutoDimensionsNeedOneArgument(opt: Options, args: seq<Value>)
    ensures ResolvedDimensions(opt, args) == Failure(AutoDimensionsArity(|args|)) <==>
            (opt.dimensions.None? || opt.dimensions.value == []) && |args| != 1
  {
  }

  /** Outside graphical mode the framebuffer is the least square holding one texel per thread. */
  lemma FramebufferHoldsAllThreads(opt: Options, d: Dims)
    requires !opt.graphical
    ensures var s := FramebufferSize(opt, d);
            && s.Success? && |s.value| == 2 && s.value[0] == s.value[1]
            && s.value[0] * s.value[1] >= Product(d)
            && forall v: nat :: v * v >= Product(d) ==> s.value[0] <= v
  {
    forall v: nat | v * v >= Product(d) ensures CeilSqrt(Product(d)) <= v {
      CeilSqrtIsLeast(Product(d), v);
    }
  }

  /**
    So truncating the readback to the thread count never reaches past the
    framebuffer: every thread's element is a decoded pixel, never a hole.
  */
  lemma ReadbackHasNoHoles(opt: Options, d: Dims, gl: Gl, k: nat)
    requires !opt.graphical && k < Product(d)
    ensures var s := FramebufferSize(opt, d).value;
            At(Framebuffer(gl, s), k) == Num(gl.pixel(k))
  {
    FramebufferHoldsAllThreads(opt, d);
  }

  /**
    A concrete stale pair: hard-coding keys only the first three output
    dimensions, while the framebuffer is sized from all of them, so outputs
    [2, 2, 2, 2] and [2, 2, 2, 3] share a key yet need framebuffers of side 4
    and 5.
  */
  lemma OutputRankStaleKey(args: seq<Value>, opt: Options, stringify: Constants -> string)
    requires !opt.graphical
    ensures ProgramCacheKey(args, opt, [2, 2, 2, 2], stringify) == ProgramCacheKey(args, opt, [2, 2, 2, 3], stringify)
    ensures FramebufferSize(opt, [2, 2, 2, 2]) == Success([4, 4])
    ensures FramebufferSize(opt, [2, 2, 2, 3]) == Success([5, 5])
  {
    var d1: seq<nat>, d2: seq<nat> := [2, 2, 2, 2], [2, 2, 2, 3];
    assert TripleText(d1) == TripleText(d2) by {
      assert EntryText(d1, 0) == EntryText(d2, 0);
      assert EntryText(d1, 1) == EntryText(d2, 1);
      assert EntryText(d1, 2) == EntryText(d2, 2);
    }
    var cube: seq<nat> := [2, 2, 2];
    assert Product(cube) == 8 by {
      assert cube[..2] == [2, 2] && [2, 2][..1] == [2] && [2][..0] == [];
    }
    assert d1[..3] == cube == d2[..3];
    CeilSqrtUnique(16, 4);
    CeilSqrtUnique(24, 5);
  }

  /**
    The same holds for arguments: hard-coding keys only the first three
    padded dimensions of an array (line 111), while its texture (lines
    469-470) and the hard-coded `user_xSize` (lines 210-214) are sized from
    all of them. Arrays measuring [2, 2, 2, 2] and [2, 2, 2, 3] share a key
    yet are uploaded into textures of side 4 and 5.
  */
  lemma ArgumentRankStaleKey(v1: Value, v2: Value)
    requires v1.Arr? && Dimensions(v1) == [2, 2, 2, 2]
    requires v2.Arr? && Dimensions(v2) == [2, 2, 2, 3]
    ensures ArgKey(v1, true) == ArgKey(v2, true)
    ensures ArraySide(v1) == 4 && ArraySide(v2) == 5
  {
    var d1: seq<nat>, d2: seq<nat> := [2, 2, 2, 2], [2, 2, 2, 3];
    assert KeyedShape(v1) == d1 && KeyedShape(v2) == d2;
    assert TripleText(d1) == TripleText(d2) by {
      assert EntryText(d1, 0) == EntryText(d2, 0);
      assert EntryText(d1, 1) == EntryText(d2, 1);
      assert EntryText(d1, 2) == EntryText(d2, 2);
    }
    var triple: seq<nat> := [2, 2, 2];
    assert Product(triple) == 8 by {
      assert triple[..2] == [2, 2] && [2, 2][..1] == [2] && [2][..0] == [];
    }
    assert d1[..3] == triple == d2[..3];
    assert ArrayDim(v1) == d1 && ArrayDim(v2) == d2;
    CeilSqrtUnique(16, 4);
    CeilSqrtUnique(24, 5);
  }

  /** A 2 x 2 x 2 array of zeros. */
  function ZeroCube(): (c: Value)
    ensures c.Arr? && NestingLengths(c) == [2, 2, 2]
  {
    var row := Arr([Num(0.0), Num(0.0)]);
    var plane := Arr([row, row]);
    assert NestingLengths(row) == [2];
    assert NestingLengths(plane) == [2] + NestingLengths(row) == [2, 2];
    assert NestingLengths(Arr([plane, plane])) == [2] + NestingLengths(plane) == [2, 2, 2];
    Arr([plane, plane])
  }

  /** Two such arrays: two and three cubes of 2 x 2 x 2 zeros. */
  lemma RankFourArrays()
    ensures Dimensions(Arr([ZeroCube(), ZeroCube()])) == [2, 2, 2, 2]
    ensures Dimensions(Arr([ZeroCube(), ZeroCube(), ZeroCube()])) == [2, 2, 2, 3]
  {
    var cube := ZeroCube();
    var n1, n2 := NestingLengths(Arr([cube, cube])), NestingLengths(Arr([cube, cube, cube]));
    assert n1 == [2] + NestingLengths(cube) == [2, 2, 2, 2];
    assert n2 == [3] + NestingLengths(cube) == [3, 2, 2, 2];
    var r1, r2 := Reverse(n1), Reverse(n2);
    assert r1 == [r1[0], r1[1], r1[2], r1[3]] == [2, 2, 2, 2];
    assert r2 == [r2[0], r2[1], r2[2], r2[3]] == [2, 2, 2, 3];
  }

  /** On a hit the stored program is reused and the cache is unchanged. */
  lemma HitReuses(cache: map<string, ProgramId>, key: string, gl: Gl)
    requires key in cache
    ensures Lookup(cache, key, gl) == Success(cache[key])
    ensures CacheAfter(cache, key, gl) == cache
  {
  }

  /** On a successful miss exactly one entry is added, under the computed key. */
  lemma MissAddsOne(cache: map<string, ProgramId>, key: string, gl: Gl)
    requires key !in cache && gl.vertexCompiles && gl.fragmentCompiles
    ensures CacheAfter(cache, key, gl).Keys == cache.Keys + {key}
    ensures CacheAfter(cache, key, gl)[key] == gl.newProgram
    ensures |CacheAfter(cache, key, gl)| == |cache| + 1
  {
  }

  /** A failed compilation leaves the cache as it was. */
  lemma CompileErrorKeepsCache(cache: map<string, ProgramId>, key: string, gl: Gl)
    requires key !in cache && !(gl.vertexCompiles && gl.fragmentCompiles)
    ensures Lookup(cache, key, gl).Failure?
    ensures CacheAfter(cache, key, gl) == cache
  {
  }

  /** Entries are never removed or replaced. */
  lemma CacheNeverShrinks(cache: map<string, ProgramId>, key: string, gl: Gl)
    ensures forall k :: k in cache ==> k in CacheAfter(cache, key, gl) && CacheAfter(cache, key, gl)[k] == cache[k]
  {
  }

  /**
    A key is compiled at most once: after a successful lookup the next lookup
    under the same key is a hit on the same program, whatever the GL answers.
  */
  lemma CompiledOnce(cache: map<string, ProgramId>, key: string, gl: Gl, next: Gl)
    requires Lookup(cache, key, gl).Success?
    ensures var after := CacheAfter(cache, key, gl);
            && Lookup(after, key, next) == Lookup(cache, key, gl)
            && CacheAfter(after, key, next) == after
  {
  }

  // ---------------------------------------------------------------------------
  // The kernel object
  // ---------------------------------------------------------------------------

  class Kernel {
    /** The options object, shared by every call and written by the setters. */
    var opt: Options
    /** `programCache`: compiled programs by cache key. */
    var programCache: map<string, ProgramId>
    /** The kernel function's parameter names, read from its source text. */
    const paramNames: seq<string>
    /** `JSON.stringify` applied to `opt.constants`. */
    const stringify: Constants -> string

    constructor (paramNames: seq<string>, opt: Options, stringify: Constants -> string)
      ensures this.paramNames == paramNames && this.opt == opt && this.stringify == stringify
      ensures programCache == map[]
    {
      this.paramNames := paramNames;
      this.opt := opt;
      this.stringify := stringify;
      programCache := map[];
    }

    /** Lines 156-169. */
    method ResolveDimensions(args: seq<Value>) returns (r: Result<Dims, Error>)
      modifies this
      ensures r == ResolvedDimensions(old(opt), args)
      ensures opt == OptionsAfter(old(opt), args)
      ensures programCache == old(programCache)
    {
      if !(opt.dimensions.Some? && |opt.dimensions.value| > 0) {
        if |args| != 1 {
          return Failure(AutoDimensionsArity(|args|));
        }
        var argType := GetArgumentType(args[0]);
        if argType == ArrayType {
          // the type word, not the argument, is what gets measured
          var d := GetDimensions(Str(TypeWord(argType)), false);
          assert d.Failure?;
          return Failure(d.error);
        } else if argType == TextureType {
          opt := opt.(dimensions := Some(args[0].tex.dimensions));
        } else {
          return Failure(AutoDimensionsUnsupported(argType));
        }
      }
      var d: Dims := opt.dimensions.value;
      return Success(d);
    }

    /** Lines 190-193 and 400-428: the program for `key`, compiled and cached on a miss. */
    method LookupOrCompile(key: string, gl: Gl) returns (r: Result<ProgramId, Error>)
      modifies this
      ensures r == Lookup(old(programCache), key, gl)
      ensures programCache == CacheAfter(old(programCache), key, gl)
      ensures opt == old(opt)
    {
      var program := if key in programCache then Some(programCache[key]) else None;
      if program.None? {
        if !gl.vertexCompiles {
          return Failure(VertexShaderCompile);
        }
        if !gl.fragmentCompiles {
          return Failure(FragmentShaderCompile);
        }
        program := Some(gl.newProgram);
        programCache := programCache[key := gl.newProgram];
      }
      return Success(program.value);
    }

    /**
      `ret(...arguments)`, lines 155-566. Besides the result it returns the
      arguments as the caller sees them afterwards: 1-D arrays bound before
      the call ended have been grown in place.
    */
    method Call(args: seq<Value>, gl: Gl) returns (r: Result<Output, Error>, argsAfter: seq<Value>)
      modifies this
      ensures opt == OptionsAfter(old(opt), args)
      ensures var p := Prepare(old(opt), args);
              p.Failure? ==> r == Failure(p.error) && programCache == old(programCache) && argsAfter == args
      ensures var p := Prepare(old(opt), args);
              p.Success? ==>
                var key := ProgramCacheKey(args, opt, p.value.0, stringify);
                var program := Lookup(old(programCache), key, gl);
                var f := FirstUnsupported(args, |paramNames|);
                && programCache == CacheAfter(old(programCache), key, gl)
                && (program.Failure? ==> r == Failure(program.error) && argsAfter == args)
                && (program.Success? ==> argsAfter == GrowPrefix(args, f))
                && (program.Success? && f < |paramNames| ==> r == Failure(InputNotSupported(At(args, f))))
                && (program.Success? && f == |paramNames| ==> r.Success?)
      ensures r.Success? ==>
                var p := Prepare(old(opt), args).value;
                && (opt.outputToTexture ==> r.value == TextureOutput(GPUTexture(gl.newTexture, p.1, p.0)))
                && (!opt.outputToTexture && opt.graphical ==> r.value == NoOutput)
                && (!opt.outputToTexture && !opt.graphical ==> Reshaped(r.value, p.0, Framebuffer(gl, p.1)))
    {
      argsAfter := args;
      var dims := ResolveDimensions(args);
      if dims.Failure? {
        return Failure(dims.error), args;
      }
      var d := dims.value;
      var texSize := DimToTexSize(d);
      assert texSize == [CeilSqrt(Product(d)), CeilSqrt(Product(d))];
      if opt.graphical {
        if |d| != 2 {
          return Failure(GraphicalDimensions(|d|)), args;
        }
        texSize := d;
      }
      assert Prepare(old(opt), args) == Success((d, texSize));
      var threadDim := PushUntil(d, 3, 1);

      var programCacheKey := GetProgramCacheKey(args, opt, d, stringify);
      var program := LookupOrCompile(programCacheKey, gl);
      if program.Failure? {
        return Failure(program.error), args;
      }

      var bound;
      bound, argsAfter := BindArguments(args, |paramNames|);
      if bound.Failure? {
        return Failure(bound.error), argsAfter;
      }

      if opt.outputToTexture {
        return Success(TextureOutput(GPUTexture(gl.newTexture, texSize, d))), argsAfter;
      }
      if opt.graphical {
        return Success(NoOutput), argsAfter;
      }
      var out := ReadBack(d, threadDim, Framebuffer(gl, texSize));
      return Success(out), argsAfter;
    }

    // -------------------------------------------------------------------------
    // Fluent setters, lines 568-606: each writes one option and returns the kernel
    // -------------------------------------------------------------------------

    method SetDimensions(dim: Option<seq<nat>>) returns (k: Kernel)
      modifies this
      ensures k == this && opt == old(opt).(dimensions := dim) && programCache == old(programCache)
    {
      opt := opt.(dimensions := dim);
      return this;
    }

    method SetDebug(flag: bool) returns (k: Kernel)
      modifies this
      ensures k == this && opt == old(opt).(debug := flag) && programCache == old(programCache)
    {
      opt := opt.(debug := flag);
      return this;
    }

    method SetGraphical(flag: bool) returns (k: Kernel)
      modifies this
      ensures k == this && opt == old(opt).(graphical := flag) && programCache == old(programCache)
    {
      opt := opt.(graphical := flag);
      return this;
    }

    method SetLoopMaxIterations(max: Option<int>) returns (k: Kernel)
      modifies this
      ensures k == this && opt == old(opt).(loopMaxIterations := max) && programCache == old(programCache)
    {
      opt := opt.(loopMaxIterations := max);
      return this;
    }

    method SetConstants(constants: Option<Constants>) returns (k: Kernel)
      modifies this
      ensures k == this && opt == old(opt).(constants := constants) && programCache == old(programCache)
    {
      opt := opt.(constants := constants);
      return this;
    }

    method SetWraparound(flag: bool) returns (k: Kernel)
      modifies this
      ensures k == this && opt == old(opt).(wraparound := flag) && programCache == old(programCache)
    {
      opt := opt.(wraparound := flag);
      return this;
    }

    method SetHardcodeConstants(flag: bool) returns (k: Kernel)
      modifies this
      ensures k == this && opt == old(opt).(hardcodeConstants := flag) && programCache == old(programCache)
    {
      opt := opt.(hardcodeConstants := flag);
      return this;
    }

    method SetOutputToTexture(outputToTexture: bool) returns (k: Kernel)
      modifies this
      ensures k == this && opt == old(opt).(outputToTexture := outputToTexture) && programCache == old(programCache)
    {
      opt := opt.(outputToTexture := outputToTexture);
      return this;
    }
  }

  /**
    `_mode_gpu(kernel, opt)`, lines 138-153 and 617: the kernel's source text
    must start with "function" (in any case); the parameter names are read
    from it and the kernel starts with an empty program cache.
  */
  method ModeGpu(funcStr: string, paramNames: seq<string>, opt: Options, stringify: Constants -> string)
    returns (r: Result<Kernel, Error>)
    ensures r.Failure? <==> !ValidateStringIsFunction(Some(funcStr))
    ensures r.Failure? ==> r.error == NotAFunction
    ensures r.Success? ==> fresh(r.value) && r.value.opt == opt && r.value.programCache == map[]
                           && r.value.paramNames == paramNames && r.value.stringify == stringify
  {
    if !ValidateStringIsFunction(Some(funcStr)) {
      return Failure(NotAFunction);
    }
    var k := new Kernel(paramNames, opt, stringify);
    return Success(k);
  }
}

=== FILE: layout.dfy ===
/**
  Layout helpers of the WebGL backend (src/backend/mode_gpu.js): square
  texture sizing, nesting dimensions, one-level flattening, zero padding of a
  2-D array, readback chunking, and the check that a kernel's source text is a
  `function`.
*/
module Layout {
  import opened Wrappers
  import opened Values

  // ---------------------------------------------------------------------------
  // Texture size: ceil(sqrt(product(dims))) on both sides
  // ---------------------------------------------------------------------------

  /** The number of elements of a tensor with the given dimensions. */
  function Product(s: seq<nat>): nat
  {
    if |s| == 0 then 1 else Product(s[..|s| - 1]) * s[|s| - 1]
  }

  /** Searches upward from `w` for the least side whose square holds `n` texels. */
  function CeilSqrtFrom(n: nat, w: nat): (r: nat)
    requires w == 0 || (w - 1) * (w - 1) < n
    ensures r * r >= n
    ensures r == 0 || (r - 1) * (r - 1) < n
    decreases n - w
  {
    if w * w >= n then w
    else
      assert w < n by {
        if w > 0 { MulMonotone(1, w, w); }
      }
      CeilSqrtFrom(n, w + 1)
  }

  /** `Math.ceil(Math.sqrt(n))` on exact integers. */
  function CeilSqrt(n: nat): (w: nat)
    ensures w * w >= n
    ensures n >= 1 ==> (w - 1) * (w - 1) < n
  {
    CeilSqrtFrom(n, 0)
  }

  lemma MulMonotone(a: nat, b: nat, c: nat)
    requires a <= b
    ensures a * c <= b * c
  {
  }

  lemma SquareMonotone(a: nat, b: nat)
    requires a <= b
    ensures a * a <= b * b
  {
    MulMonotone(a, b, a);
    MulMonotone(a, b, b);
  }

  /** No smaller side holds `n` texels: CeilSqrt is the least such side. */
  lemma CeilSqrtIsLeast(n: nat, v: nat)
    requires v * v >= n
    ensures CeilSqrt(n) <= v
  {
    var w := CeilSqrt(n);
    if v < w {
      SquareMonotone(v, w - 1);
    }
  }

  /** The two bounds of `dimToTexSize` determine the side uniquely. */
  lemma CeilSqrtUnique(n: nat, w: nat)
    requires w * w >= n
    requires w == 0 || (w - 1) * (w - 1) < n
    ensures w == CeilSqrt(n)
  {
    var c := CeilSqrt(n);
    CeilSqrtIsLeast(n, w);
    if c < w {
      SquareMonotone(c, w - 1);
    }
  }

  /** `dimToTexSize`: the square texture [w, w] with w = ceil(sqrt(product(dims))). */
  method DimToTexSize(dimensions: Dims) returns (texSize: seq<nat>)
    ensures |texSize| == 2 && texSize[0] == texSize[1]
    ensures texSize[0] * texSize[1] >= Product(dimensions)
    ensures Product(dimensions) >= 1 ==> (texSize[0] - 1) * (texSize[1] - 1) < Product(dimensions)
    ensures texSize[0] == CeilSqrt(Product(dimensions))
  {
    var numTexels := dimensions[0];
    assert dimensions[..1][..0] == [];
    for i := 1 to |dimensions|
      invariant numTexels == Product(dimensions[..i])
    {
      assert dimensions[..i + 1][..i] == dimensions[..i];
      numTexels := numTexels * dimensions[i];
    }
    assert dimensions[..|dimensions|] == dimensions;
    var w := CeilSqrt(numTexels);
    texSize := [w, w];
  }

  // ---------------------------------------------------------------------------
  // validateStringIsFunction
  // ---------------------------------------------------------------------------

  /** `toLowerCase` on one character, for the ASCII letters. */
  function ToLowerAscii(c: char): char
  {
    if 'A' <= c <= 'Z' then (c as int + 32) as char else c
  }

  function LowerCase(s: string): (r: string)
    ensures |r| == |s|
    ensures forall i :: 0 <= i < |s| ==> r[i] == ToLowerAscii(s[i])
  {
    seq(|s|, i requires 0 <= i < |s| => ToLowerAscii(s[i]))
  }

  /** `s.slice(start, end)` for non-negative bounds: both are clamped to the length. */
  function Slice<T>(s: seq<T>, start: nat, end: nat): (r: seq<T>)
    requires start <= end
    ensures |r| == Min(end, |s|) - Min(start, |s|)
    ensures forall i :: 0 <= i < |r| ==> r[i] == s[start + i]
  {
    s[Min(start, |s|)..Min(end, |s|)]
  }

  function Min(a: int, b: int): int
  {
    if a <= b then a else b
  }

  /**
    `validateStringIsFunction`: the source text is present and its first eight
    characters spell "function" in any letter case.
  */
  function ValidateStringIsFunction(funcStr: Option<string>): (ok: bool)
    ensures ok <==> && funcStr.Some?
                    && |funcStr.value| >= 8
                    && forall i :: 0 <= i < 8 ==> ToLowerAscii(funcStr.value[i]) == "function"[i]
  {
    match funcStr
    case None => false
    case Some(s) =>
      var head := LowerCase(Slice(s, 0, |"function"|));
      assert |head| == 8 ==> (head == "function" <==> forall i :: 0 <= i < 8 ==> head[i] == "function"[i]);
      head == "function"
  }

  /** The check ignores letter case: two texts equal up to case are both accepted or both refused. */
  lemma {:induction false} ValidateIgnoresCase(s: string, t: string)
    requires LowerCase(s) == LowerCase(t)
    ensures ValidateStringIsFunction(Some(s)) == ValidateStringIsFunction(Some(t))
  {
    assert |s| == |LowerCase(s)| == |LowerCase(t)| == |t|;
    if |s| >= 8 {
      forall i | 0 <= i < 8
        ensures ToLowerAscii(s[i]) == ToLowerAscii(t[i])
      {
        assert LowerCase(s)[i] == LowerCase(t)[i];
      }
    }
  }

  // ---------------------------------------------------------------------------
  // getDimensions
  // ---------------------------------------------------------------------------

  /**
    The lengths met by following first elements down from `x`, outermost first
    (the values the `while (Array.isArray(temp))` loop pushes).
  */
  function NestingLengths(x: Value): seq<nat>
  {
    match x
    case Arr(items) => [|items|] + (if |items| == 0 then [] else NestingLengths(items[0]))
    case _ => []
  }

  function Reverse<T>(s: seq<T>): (r: seq<T>)
    ensures |r| == |s|
    ensures forall i :: 0 <= i < |s| ==> r[i] == s[|s| - 1 - i]
  {
    if |s| == 0 then [] else Reverse(s[1..]) + [s[0]]
  }

  /** The unpadded dimensions of an array (innermost length first) or of a texture. */
  function Dimensions(x: Value): (d: seq<nat>)
    requires x.Arr? || x.Tex?
  {
    if x.Arr? then Reverse(NestingLengths(x)) else x.tex.dimensions
  }

  /** `s` followed by copies of `fill` until it has at least `n` entries. */
  function PadTo<T>(s: seq<T>, n: nat, fill: T): (r: seq<T>)
    ensures |r| == if |s| < n then n else |s|
    ensures r[..|s|] == s
    ensures forall i :: |s| <= i < |r| ==> r[i] == fill
  {
    if |s| < n then s + seq(n - |s|, _ => fill) else s
  }

  /** The `while (a.length < n) a.push(fill)` loops of the backend. */
  method PushUntil<T>(s: seq<T>, n: nat, fill: T) returns (r: seq<T>)
    ensures r == PadTo(s, n, fill)
  {
    r := s;
    while |r| < n
      invariant |s| <= |r| && r[..|s|] == s
      invariant forall i :: |s| <= i < |r| ==> r[i] == fill
      invariant |s| < n ==> |r| <= n
      invariant |s| >= n ==> r == s
      decreases n - |r|
    {
      r := r + [fill];
    }
    assert r == PadTo(s, n, fill) by {
      var p := PadTo(s, n, fill);
      forall i | 0 <= i < |r| ensures r[i] == p[i] {
        if i < |s| {
          assert r[..|s|][i] == p[..|s|][i];
        }
      }
    }
  }

  /** `getDimensions(x, pad)`. */
  method GetDimensions(x: Value, pad: bool) returns (r: Result<seq<nat>, Error>)
    ensures r.Failure? <==> !(x.Arr? || x.Tex?)
    ensures r.Failure? ==> r.error == UnknownDimensions(x)
    ensures r.Success? && !pad ==> r.value == Dimensions(x)
    ensures r.Success? && pad ==> r.value == PadTo(Dimensions(x), 3, 1)
  {
    var ret: seq<nat>;
    if x.Arr? {
      var dim := NestingDims(x);
      ret := Reverse(dim);
    } else if x.Tex? {
      ret := x.tex.dimensions;
    } else {
      return Failure(UnknownDimensions(x));
    }
    assert ret == Dimensions(x);
    if pad {
      ret := PushUntil(ret, 3, 1);
    }
    return Success(ret);
  }

  /** The `while (Array.isArray(temp))` loop: the lengths met going down through first elements. */
  method NestingDims(x: Value) returns (dim: seq<nat>)
    ensures dim == NestingLengths(x)
  {
    dim := [];
    var temp := x;
    while temp.Arr?
      invariant dim + NestingLengths(temp) == NestingLengths(x)
      decreases |NestingLengths(temp)|
    {
      var next := if |temp.items| == 0 then Undefined else temp.items[0];
      assert NestingLengths(temp) == [|temp.items|] + NestingLengths(next);
      assert dim + NestingLengths(temp) == (dim + [|temp.items|]) + NestingLengths(next);
      dim := dim + [|temp.items|];
      temp := next;
    }
    assert NestingLengths(temp) == [];
    assert dim + [] == dim;
  }

  /** A padded dimension list has at least three entries and starts with the unpadded one. */
  lemma PaddedDimensions(d: seq<nat>)
    ensures |PadTo(d, 3, 1)| == if |d| < 3 then 3 else |d|
    ensures forall i :: 0 <= i < |d| ==> PadTo(d, 3, 1)[i] == d[i]
    ensures forall i :: |d| <= i < 3 ==> PadTo(d, 3, 1)[i] == 1
    ensures Product(PadTo(d, 3, 1)) == Product(d)
  {
    var p := PadTo(d, 3, 1);
    forall i | 0 <= i < |d| ensures p[i] == d[i] {
      assert p[..|d|][i] == d[i];
    }
    if |d| < 3 {
      assert p == d + seq(3 - |d|, _ => 1);
      ProductOfOnes(d, 3 - |d|);
    } else {
      assert p == d;
    }
  }

  lemma {:induction false} ProductOfOnes(d: seq<nat>, k: nat)
    ensures Product(d + seq(k, _ => 1)) == Product(d)
  {
    if k > 0 {
      var s := d + seq(k, _ => 1);
      assert s[..|s| - 1] == d + seq(k - 1, _ => 1);
      ProductOfOnes(d, k - 1);
    } else {
      assert d + seq(k, _ => 1) == d;
    }
  }

  /** Arrays whose elements are not themselves arrays. */
  predicate IsVector(v: Value)
  {
    v.Arr? && forall i :: 0 <= i < |v.items| ==> !v.items[i].Arr?
  }

  /** A non-empty array of vectors that all have `cols` elements. */
  predicate IsMatrix(v: Value, cols: nat)
  {
    && v.Arr? && |v.items| >= 1
    && forall i :: 0 <= i < |v.items| ==> IsVector(v.items[i]) && |v.items[i].items| == cols
  }

  /** A vector's dimensions are [n, 1, 1] once padded. */
  lemma VectorDimensions(v: Value)
    requires IsVector(v)
    ensures PadTo(Dimensions(v), 3, 1) == [|v.items|, 1, 1]
  {
    assert NestingLengths(v) == [|v.items|];
  }

  /** A matrix of `rows` rows and `cols` columns has padded dimensions [cols, rows, 1]: innermost first. */
  lemma MatrixDimensions(v: Value, cols: nat)
    requires IsMatrix(v, cols)
    ensures PadTo(Dimensions(v), 3, 1) == [cols, |v.items|, 1]
  {
    assert NestingLengths(v.items[0]) == [cols];
    assert NestingLengths(v) == [|v.items|, cols];
  }

  // ---------------------------------------------------------------------------
  // flatten
  // ---------------------------------------------------------------------------

  /** What `[].concat(v)` contributes: the elements of an array, or the value itself. */
  function Spread(v: Value): seq<Value>
  {
    if v.Arr? then v.items else [v]
  }

  /** `[].concat.apply([], s)`. */
  function ConcatSpread(s: seq<Value>): seq<Value>
  {
    if |s| == 0 then [] else Spread(s[0]) + ConcatSpread(s[1..])
  }

  /**
    `flatten`: removes one level of nesting when the first element is an array;
    otherwise returns the very same array.
  */
  function Flatten(arr: seq<Value>): seq<Value>
  {
    if |arr| > 0 && arr[0].Arr? then ConcatSpread(arr) else arr
  }

  /** A vector is returned as it is: the caller's own array. */
  lemma FlattenVector(v: Value)
    requires IsVector(v)
    ensures Flatten(v.items) == v.items
  {
  }

  /**
    A matrix flattens in row-major order: element k of the result is element
    k % cols of row k / cols.
  */
  lemma FlattenMatrix(v: Value, cols: nat)
    requires IsMatrix(v, cols)
    ensures |Flatten(v.items)| == |v.items| * cols
    ensures forall k :: 0 <= k < |Flatten(v.items)| ==>
              0 < cols && k / cols < |v.items| && Flatten(v.items)[k] == v.items[k / cols].items[k % cols]
  {
    var rows := v.items;
    var flat := Flatten(rows);
    assert rows[0].Arr?;
    assert flat == ConcatSpread(rows);
    assert forall i :: 0 <= i < |rows| ==> rows[i].Arr? && |rows[i].items| == cols;
    ConcatRowsLength(rows, cols);
    forall k | 0 <= k < |flat|
      ensures 0 < cols && k / cols < |rows| && flat[k] == rows[k / cols].items[k % cols]
    {
      ConcatRowsIndex(rows, cols, k);
    }
  }

  /** Element k of the concatenated rows is column k % cols of row k / cols. */
  lemma ConcatRowsIndex(rows: seq<Value>, cols: nat, k: nat)
    requires forall i :: 0 <= i < |rows| ==> rows[i].Arr? && |rows[i].items| == cols
    requires k < |rows| * cols
    ensures cols > 0 && k / cols < |rows| && k % cols < cols
    ensures k < |ConcatSpread(rows)| && ConcatSpread(rows)[k] == rows[k / cols].items[k % cols]
  {
    DivBounds(k, cols, |rows|);
    ConcatRowsAt(rows, cols, k / cols, k % cols);
  }

  /** An index below n * c splits into a row below n and a column below c. */
  lemma DivBounds(k: nat, c: nat, n: nat)
    requires k < n * c
    ensures c > 0 && k / c < n && k == (k / c) * c + k % c
  {
    assert c > 0;
    if k / c >= n {
      MulMonotone(n, k / c, c);
    }
  }

  lemma {:induction false} ConcatRowsLength(rows: seq<Value>, cols: nat)
    requires forall i :: 0 <= i < |rows| ==> rows[i].Arr? && |rows[i].items| == cols
    ensures |ConcatSpread(rows)| == |rows| * cols
  {
    if |rows| > 0 {
      ConcatRowsLength(rows[1..], cols);
      MulSucc(|rows| - 1, cols);
    }
  }

  lemma MulSucc(a: nat, b: nat)
    ensures (a + 1) * b == a * b + b
  {
  }

  lemma {:induction false} ConcatRowsAt(rows: seq<Value>, cols: nat, y: nat, x: nat)
    requires forall i :: 0 <= i < |rows| ==> rows[i].Arr? && |rows[i].items| == cols
    requires y < |rows| && x < cols
    ensures y * cols + x < |ConcatSpread(rows)|
    ensures ConcatSpread(rows)[y * cols + x] == rows[y].items[x]
  {
    var head, tail := rows[0].items, rows[1..];
    assert ConcatSpread(rows) == head + ConcatSpread(tail);
    ConcatRowsLength(tail, cols);
    assert |head| == cols;
    if y == 0 {
      assert y * cols + x == x;
    } else {
      assert tail[y - 1] == rows[y];
      ConcatRowsAt(tail, cols, y - 1, x);
      MulSucc(y - 1, cols);
      assert y * cols + x == |head| + ((y - 1) * cols + x);
    }
  }

  /** Only one level is removed: a 3-D array flattens to a sequence that still holds arrays. */
  lemma FlattenIsOneLevel(arr: seq<Value>)
    requires |arr| > 0 && arr[0].Arr? && |arr[0].items| > 0 && arr[0].items[0].Arr?
    ensures |Flatten(arr)| > 0 && Flatten(arr)[0] == arr[0].items[0] && Flatten(arr)[0].Arr?
  {
  }

  // ---------------------------------------------------------------------------
  // pad (not called by the backend)
  // ---------------------------------------------------------------------------

  /** `zeros(n)`: n zeros. */
  function Zeros(n: nat): (z: seq<Value>)
    ensures |z| == n && forall i :: 0 <= i < n ==> z[i] == Num(0.0)
  {
    seq(n, _ => Num(0.0))
  }

  /** The `for (i < padding)` loop: one row of zeros above and below, `k` times. */
  function Border(rows: seq<Value>, k: nat, len: nat): seq<Value>
    decreases k
  {
    if k == 0 then rows else Border([Arr(Zeros(len))] + rows + [Arr(Zeros(len))], k - 1, len)
  }

  /**
    `pad(arr, padding)`: each row gets `padding` zeros on both sides; then
    `padding` rows of `arr.length + 2 * padding` zeros are added above and below.
  */
  function Pad(arr: seq<Value>, padding: nat): seq<Value>
  {
    var len := |arr| + padding * 2;
    var rows := seq(|arr|, i requires 0 <= i < |arr| => Arr(Zeros(padding) + Spread(arr[i]) + Zeros(padding)));
    Border(rows, padding, len)
  }

  lemma {:induction false} BorderShape(rows: seq<Value>, k: nat, len: nat)
    ensures |Border(rows, k, len)| == |rows| + 2 * k
    ensures forall i :: k <= i < k + |rows| ==> Border(rows, k, len)[i] == rows[i - k]
    ensures forall i :: 0 <= i < k ==> Border(rows, k, len)[i] == Arr(Zeros(len))
    ensures forall i :: k + |rows| <= i < 2 * k + |rows| ==> Border(rows, k, len)[i] == Arr(Zeros(len))
    decreases k
  {
    if k > 0 {
      var grown := [Arr(Zeros(len))] + rows + [Arr(Zeros(len))];
      BorderShape(grown, k - 1, len);
      var b := Border(rows, k, len);
      assert b == Border(grown, k - 1, len);
      forall i | k <= i < k + |rows| ensures b[i] == rows[i - k] {
        assert b[i] == grown[i - (k - 1)];
      }
      forall i | 0 <= i < k ensures b[i] == Arr(Zeros(len)) {
        if i == k - 1 {
          assert b[i] == grown[0];
        }
      }
      forall i | k + |rows| <= i < 2 * k + |rows| ensures b[i] == Arr(Zeros(len)) {
        if i == k + |rows| {
          assert b[i] == grown[|rows| + 1];
        }
      }
    }
  }

  /**
    `pad` on an n-row matrix of `cols` columns: n + 2p rows; the p rows above
    and below hold n + 2p zeros (the length is taken from the row count, so
    they are as long as the middle rows only when the matrix is square); each
    middle row is the original row with p zeros on both sides.
  */
  lemma PadMatrix(v: Value, cols: nat, padding: nat)
    requires IsMatrix(v, cols)
    ensures var r, n := Pad(v.items, padding), |v.items|;
            && |r| == n + 2 * padding
            && (forall i :: 0 <= i < padding || padding + n <= i < |r| ==> r[i] == Arr(Zeros(n + 2 * padding)))
            && (forall i :: padding <= i < padding + n ==> r[i].Arr? && |r[i].items| == cols + 2 * padding)
            && (forall i, j :: 0 <= i < n && 0 <= j < cols ==> r[i + padding].items[j + padding] == v.items[i].items[j])
            && (forall i, j :: padding <= i < padding + n && 0 <= j < cols + 2 * padding && !(padding <= j < padding + cols) ==>
                  r[i].items[j] == Num(0.0))
  {
    var n := |v.items|;
    var rows := seq(n, i requires 0 <= i < n => Arr(Zeros(padding) + Spread(v.items[i]) + Zeros(padding)));
    BorderShape(rows, padding, n + padding * 2);
    var r := Pad(v.items, padding);
    assert r == Border(rows, padding, n + padding * 2);
    forall i | padding <= i < padding + n
      ensures r[i] == rows[i - padding]
      ensures r[i].items == Zeros(padding) + v.items[i - padding].items + Zeros(padding)
    {
    }
  }

  /** With cols != n the padded rows differ in length: a 1-by-3 matrix padded by 1 has rows of 3, 5 and 3. */
  lemma PadRagged()
    ensures var v := Arr([Arr([Num(1.0), Num(2.0), Num(3.0)])]);
            var r := Pad(v.items, 1);
            |r| == 3 && |r[0].items| == 3 && |r[1].items| == 5 && |r[2].items| == 3
  {
    var v := Arr([Arr([Num(1.0), Num(2.0), Num(3.0)])]);
    PadMatrix(v, 3, 1);
  }

  /**
    On a square n-by-n matrix `pad` yields an (n + 2p)-square matrix with the
    original element (i, j) at (i + p, j + p) and zeros everywhere else.
  */
  lemma PadSquare(v: Value, padding: nat)
    requires v.Arr? && IsMatrix(v, |v.items|)
    ensures var r, n := Pad(v.items, padding), |v.items|;
            && |r| == n + 2 * padding
            && (forall i :: 0 <= i < |r| ==> r[i].Arr? && |r[i].items| == n + 2 * padding)
            && (forall i, j :: 0 <= i < n && 0 <= j < n ==> r[i + padding].items[j + padding] == v.items[i].items[j])
            && (forall i, j :: 0 <= i < |r| && 0 <= j < |r| && !(padding <= i < padding + n && padding <= j < padding + n) ==>
                  r[i].items[j] == Num(0.0))
  {
    var n := |v.items|;
    PadMatrix(v, n, padding);
    var r := Pad(v.items, padding);
    forall i | 0 <= i < |r|
      ensures r[i].Arr? && |r[i].items| == n + 2 * padding
    {
    }
  }

  // ---------------------------------------------------------------------------
  // splitArray
  // ---------------------------------------------------------------------------

  /** The concatenation of a sequence of chunks. */
  ghost function Concat<T>(ss: seq<seq<T>>): seq<T>
  {
    if |ss| == 0 then [] else Concat(ss[..|ss| - 1]) + ss[|ss| - 1]
  }

  /**
    `splitArray(array, part)`: consecutive chunks of `part` elements, the last one
    non-empty and possibly shorter, that concatenate back to `array`. With
    `part == 0` and a non-empty array the source loops forever, which the
    precondition excludes.
  */
  method SplitArray<T>(a: seq<T>, part: nat) returns (chunks: seq<seq<T>>)
    requires part > 0 || |a| == 0
    ensures Concat(chunks) == a
    ensures forall k :: 0 <= k < |chunks| - 1 ==> |chunks[k]| == part
    ensures |chunks| > 0 ==> 0 < |chunks[|chunks| - 1]| <= part
    ensures |chunks| == 0 <==> |a| == 0
  {
    chunks := [];
    var i := 0;
    while i < |a|
      invariant Concat(chunks) == a[..Min(i, |a|)]
      invariant i <= |a| ==> forall k :: 0 <= k < |chunks| ==> |chunks[k]| == part
      invariant forall k :: 0 <= k < |chunks| - 1 ==> |chunks[k]| == part
      invariant |chunks| > 0 ==> 0 < |chunks[|chunks| - 1]| <= part
      invariant |chunks| == 0 ==> i == 0
      decreases |a| - i
    {
      var piece := Slice(a, i, i + part);
      assert piece == a[i..Min(i + part, |a|)];
      assert (chunks + [piece])[..|chunks|] == chunks;
      assert a[..i] + a[i..Min(i + part, |a|)] == a[..Min(i + part, |a|)];
      chunks := chunks + [piece];
      i := i + part;
    }
    assert a[..Min(i, |a|)] == a;
  }

  lemma MulLeCancel(a: nat, b: nat, p: nat)
    requires p > 0 && a * p <= b * p
    ensures a <= b
  {
    if a > b {
      MulMonotone(b + 1, a, p);
    }
  }

  lemma {:induction false} ConcatFullLength<T>(chunks: seq<seq<T>>, part: nat)
    requires forall k :: 0 <= k < |chunks| ==> |chunks[k]| == part
    ensures |Concat(chunks)| == |chunks| * part
  {
    if |chunks| > 0 {
      ConcatFullLength(chunks[..|chunks| - 1], part);
      MulSucc(|chunks| - 1, part);
    }
  }

  /** Element j of chunk k sits at k * part + j of the concatenation. */
  lemma {:induction false} ConcatAt<T>(chunks: seq<seq<T>>, part: nat, k: nat, j: nat)
    requires forall i :: 0 <= i < |chunks| - 1 ==> |chunks[i]| == part
    requires k < |chunks| && j < |chunks[k]|
    ensures k * part + j < |Concat(chunks)| && Concat(chunks)[k * part + j] == chunks[k][j]
  {
    var init := chunks[..|chunks| - 1];
    ConcatFullLength(init, part);
    if k < |chunks| - 1 {
      ConcatAt(init, part, k, j);
    }
  }

  /**
    When `|a| == part * n` the chunks are exactly `n` rows of `part` elements:
    the readback reshape of a rank-2 output leaves no short row behind.
  */
  lemma SplitExact<T>(a: seq<T>, part: nat, n: nat, chunks: seq<seq<T>>)
    requires part > 0 && |a| == part * n
    requires Concat(chunks) == a
    requires forall k :: 0 <= k < |chunks| - 1 ==> |chunks[k]| == part
    requires |chunks| > 0 ==> 0 < |chunks[|chunks| - 1]| <= part
    ensures |chunks| == n
    ensures forall k :: 0 <= k < n ==> |chunks[k]| == part
  {
    assert |a| == n * part;
    if |chunks| == 0 {
      assert n == 0 by {
        if n > 0 { MulMonotone(1, n, part); }
      }
    } else {
      SplitCount(a, part, n, chunks);
    }
  }

  lemma SplitCount<T>(a: seq<T>, part: nat, n: nat, chunks: seq<seq<T>>)
    requires part > 0 && |a| == n * part
    requires Concat(chunks) == a
    requires forall k :: 0 <= k < |chunks| - 1 ==> |chunks[k]| == part
    requires 0 < |chunks| && 0 < |chunks[|chunks| - 1]| <= part
    ensures |chunks| == n
    ensures forall k :: 0 <= k < n ==> |chunks[k]| == part
  {
    var m := |chunks|;
    var init := chunks[..m - 1];
    ConcatFullLength(init, part);
    assert Concat(chunks) == Concat(init) + chunks[m - 1];
    var last := |chunks[m - 1]|;
    assert n * part == (m - 1) * part + last;
    MulSucc(m - 1, part);
    MulLeCancel(n, m, part);
    if n <= m - 1 {
      MulMonotone(n, m - 1, part);
    }
    assert |chunks[m - 1]| == part;
  }
}

=== FILE: options.dfy ===
/**
  The kernel options object `opt` that the fluent setters write and every call
  reads.
*/
module KernelOptions {
  import opened Wrappers

  /** `opt.constants`: named numbers, in the object's key order. */
  type Constants = seq<(string, real)>

  /**
    `opt`. JavaScript truthiness is made explicit: an absent or empty
    `dimensions`, an absent `constants` object, and an absent or zero
    `loopMaxIterations` are the falsy cases the backend tests for.
  */
  datatype Options = Options(
    dimensions: Option<seq<nat>>,
    debug: bool,
    graphical: bool,
    loopMaxIterations: Option<int>,
    constants: Option<Constants>,
    wraparound: bool,
    hardcodeConstants: bool,
    outputToTexture: bool,
    mode: Option<string>)

  /** The `LOOP_MAX` the fragment shader is compiled with (line 256): the set limit, or 100. */
  function LoopMax(opt: Options): (n: int)
    ensures n != 0
    ensures n == 100 || opt.loopMaxIterations == Some(n)
    ensures opt.loopMaxIterations.Some? && opt.loopMaxIterations.value != 0 ==> n == opt.loopMaxIterations.value
  {
    match opt.loopMaxIterations
    case Some(m) => if m != 0 then m else 100
    case None => 100
  }
}

=== FILE: readback.dfy ===
/**
  The CPU side of a kernel call's result (src/backend/mode_gpu.js, lines
  549-564): the decoded framebuffer is cut to the number of threads and
  reshaped with `splitArray` into rows (rank 2) or slices of rows (rank 3).
*/
module Readback {
  import opened Values
  import opened Layout
  import opened Shader

  /** What a kernel call returns. */
  datatype Output =
    | TextureOutput(tex: GPUTexture)      // outputToTexture: a GPUTexture record
    | NoOutput                            // graphical mode, or a rank above 3: undefined
    | Flat(items: seq<Value>)
    | Matrix(rows: seq<seq<Value>>)
    | Cube(slices: seq<seq<seq<Value>>>)

  /** `a.length = n`: truncation, or extension with holes that read as undefined. */
  function SetLength(a: seq<Value>, n: nat): (r: seq<Value>)
    ensures |r| == n
    ensures forall k :: 0 <= k < n ==> r[k] == At(a, k)
  {
    if n <= |a| then a[..n] else a + seq(n - |a|, _ => Undefined)
  }

  /** Rows of `d0` elements, `d1` of them, holding the texels in row-major order. */
  ghost predicate MatrixOf(rows: seq<seq<Value>>, d0: nat, d1: nat, texels: seq<Value>)
  {
    && (d0 == 0 ==> rows == [])
    && (d0 > 0 ==>
          && |rows| == d1
          && (forall y :: 0 <= y < d1 ==> |rows[y]| == d0)
          && forall y, x :: 0 <= y < d1 && 0 <= x < d0 ==> rows[y][x] == At(texels, y * d0 + x))
  }

  /** Slices of `d1` rows of `d0` elements, `d2` of them, holding the texels in order. */
  ghost predicate CubeOf(slices: seq<seq<seq<Value>>>, d0: nat, d1: nat, d2: nat, texels: seq<Value>)
  {
    && (d0 * d1 == 0 ==> slices == [])
    && (d0 * d1 > 0 ==>
          && |slices| == d2
          && (forall z :: 0 <= z < d2 ==> |slices[z]| == d1 && forall y :: 0 <= y < d1 ==> |slices[z][y]| == d0)
          && forall z, y, x :: 0 <= z < d2 && 0 <= y < d1 && 0 <= x < d0 ==>
               slices[z][y][x] == At(texels, z * (d0 * d1) + y * d0 + x))
  }

  /**
    The shape a readback takes for output dimensions `dims`: the first
    `dims[0]` texels for rank 1, rows for rank 2, slices of rows for rank 3,
    and nothing above rank 3.
  */
  ghost predicate Reshaped(out: Output, dims: Dims, texels: seq<Value>)
  {
    && (|dims| == 1 ==> out.Flat? && |out.items| == dims[0]
                        && forall k :: 0 <= k < dims[0] ==> out.items[k] == At(texels, k))
    && (|dims| == 2 ==> out.Matrix? && MatrixOf(out.rows, dims[0], dims[1], texels))
    && (|dims| == 3 ==> out.Cube? && CubeOf(out.slices, dims[0], dims[1], dims[2], texels))
    && (|dims| > 3 ==> out == NoOutput)
  }

  /**
    Lines 551-564: `result.length = threadDim[0] * threadDim[1] * threadDim[2]`,
    then the result is returned flat, split into rows of `dims[0]`, or split
    into slices of `dims[0] * dims[1]` each split into rows; above rank 3
    nothing is returned.
  */
  method ReadBack(dims: Dims, threadDim: seq<nat>, texels: seq<Value>) returns (out: Output)
    requires threadDim == PadTo(dims, 3, 1)
    ensures Reshaped(out, dims, texels)
  {
    PaddedDimensions(dims);
    var result := SetLength(texels, threadDim[0] * threadDim[1] * threadDim[2]);
    if |dims| == 1 {
      return Flat(result);
    } else if |dims| == 2 {
      var rows := SplitRows(result, dims[0], dims[1], texels);
      return Matrix(rows);
    } else if |dims| == 3 {
      var slices := SplitSlices(result, dims[0], dims[1], dims[2], texels);
      return Cube(slices);
    }
    return NoOutput;
  }

  /** Line 558: `splitArray(result, dims[0])` on a result of `dims[0] * dims[1]` elements. */
  method SplitRows(result: seq<Value>, d0: nat, d1: nat, ghost texels: seq<Value>) returns (rows: seq<seq<Value>>)
    requires |result| == d0 * d1
    requires forall k :: 0 <= k < |result| ==> result[k] == At(texels, k)
    ensures MatrixOf(rows, d0, d1, texels)
  {
    if d0 == 0 {
      assert |result| == 0;
    }
    rows := SplitArray(result, d0);
    if d0 > 0 {
      SplitExact(result, d0, d1, rows);
      forall y, x | 0 <= y < d1 && 0 <= x < d0
        ensures rows[y][x] == At(texels, y * d0 + x)
      {
        ConcatAt(rows, d0, y, x);
      }
    }
  }

  /** Lines 560-563: slices of `dims[0] * dims[1]`, each split into rows of `dims[0]`. */
  method SplitSlices(result: seq<Value>, d0: nat, d1: nat, d2: nat, ghost texels: seq<Value>)
    returns (slices: seq<seq<seq<Value>>>)
    requires |result| == d0 * d1 * d2
    requires forall k :: 0 <= k < |result| ==> result[k] == At(texels, k)
    ensures CubeOf(slices, d0, d1, d2, texels)
  {
    if d0 * d1 == 0 {
      assert |result| == 0;
    }
    var cube := SplitArray(result, d0 * d1);
    if d0 * d1 > 0 {
      SplitExact(result, d0 * d1, d2, cube);
    }
    slices := SplitEach(cube, d0, d1);
    if d0 * d1 > 0 {
      SlicesOfTexels(result, cube, d0 * d1, texels);
      CubeFromSlices(cube, slices, d0, d1, d2, texels);
    }
  }

  /** Element j of slice z of the chunked result is texel z * plane + j. */
  lemma SlicesOfTexels(result: seq<Value>, cube: seq<seq<Value>>, plane: nat, texels: seq<Value>)
    requires forall k :: 0 <= k < |result| ==> result[k] == At(texels, k)
    requires Concat(cube) == result
    requires forall z :: 0 <= z < |cube| ==> |cube[z]| == plane
    ensures forall z, j :: 0 <= z < |cube| && 0 <= j < plane ==> cube[z][j] == At(texels, z * plane + j)
  {
    forall z, j | 0 <= z < |cube| && 0 <= j < plane
      ensures cube[z][j] == At(texels, z * plane + j)
    {
      ConcatAt(cube, plane, z, j);
    }
  }

  /** Lines 561-563: `cube.map(x => splitArray(x, dims[0]))` on slices of `d0 * d1` elements. */
  method SplitEach(cube: seq<seq<Value>>, d0: nat, d1: nat) returns (slices: seq<seq<seq<Value>>>)
    requires forall z :: 0 <= z < |cube| ==> |cube[z]| == d0 * d1
    requires d0 > 0 || |cube| == 0
    ensures |slices| == |cube|
    ensures forall z :: 0 <= z < |cube| ==> MatrixOf(slices[z], d0, d1, cube[z])
  {
    slices := [];
    for z := 0 to |cube|
      invariant |slices| == z
      invariant forall i :: 0 <= i < z ==> MatrixOf(slices[i], d0, d1, cube[i])
    {
      var rows := SplitRows(cube[z], d0, d1, cube[z]);
      slices := slices + [rows];
    }
  }

  lemma CubeFromSlices(cube: seq<seq<Value>>, slices: seq<seq<seq<Value>>>,
                       d0: nat, d1: nat, d2: nat, texels: seq<Value>)
    requires d0 > 0 && d1 > 0
    requires |cube| == d2 && forall z :: 0 <= z < d2 ==> |cube[z]| == d0 * d1
    requires forall z, j :: 0 <= z < d2 && 0 <= j < d0 * d1 ==> cube[z][j] == At(texels, z * (d0 * d1) + j)
    requires |slices| == |cube|
    requires forall z :: 0 <= z < |cube| ==> MatrixOf(slices[z], d0, d1, cube[z])
    ensures CubeOf(slices, d0, d1, d2, texels)
  {
    forall z, y, x | 0 <= z < d2 && 0 <= y < d1 && 0 <= x < d0
      ensures slices[z][y][x] == At(texels, z * (d0 * d1) + y * d0 + x)
    {
      assert MatrixOf(slices[z], d0, d1, cube[z]);
      var j := y * d0 + x;
      InPlane(x, y, d0, d1);
      assert slices[z][y][x] == At(cube[z], j) == cube[z][j];
    }
  }

  /**
    The reshaped cube puts the value of thread index k at the coordinate the
    fragment shader's `indexTo3D` gives that thread (lines 341-348, 388): the
    CPU and GPU sides agree on where each thread's result lives.
  */
  lemma CubeAgreesWithThreadIds(slices: seq<seq<seq<Value>>>, d0: nat, d1: nat, d2: nat, texels: seq<Value>, k: nat)
    requires d0 > 0 && d1 > 0 && CubeOf(slices, d0, d1, d2, texels)
    requires k < d0 * d1 * d2
    ensures var c := IndexTo3D(k, d0, d1);
            0 <= c.z < |slices| && 0 <= c.y < |slices[c.z]| && 0 <= c.x < |slices[c.z][c.y]|
            && slices[c.z][c.y][c.x] == At(texels, k)
  {
    PlanePositive(d0, d1);
    var c := IndexTo3D(k, d0, d1);
    IndexTo3DInRange(k, d0, d1, d2);
    assert slices[c.z][c.y][c.x] == At(texels, c.z * (d0 * d1) + c.y * d0 + c.x);
  }

  /** Likewise for a matrix: the value of thread k sits at row y, column x of `indexTo3D(k)`. */
  lemma MatrixAgreesWithThreadIds(rows: seq<seq<Value>>, d0: nat, d1: nat, texels: seq<Value>, k: nat)
    requires d0 > 0 && d1 > 0 && MatrixOf(rows, d0, d1, texels)
    requires k < d0 * d1
    ensures var c := IndexTo3D(k, d0, d1);
            c.z == 0 && 0 <= c.y < |rows| && 0 <= c.x < |rows[c.y]| && rows[c.y][c.x] == At(texels, k)
  {
    var c := IndexTo3D(k, d0, d1);
    assert d0 * d1 * 1 == d0 * d1;
    IndexTo3DInRange(k, d0, d1, 1);
    assert rows[c.y][c.x] == At(texels, c.y * d0 + c.x);
  }
}

=== FILE: shader.dfy ===
/**
  The integer skeleton of the fragment-shader helpers the WebGL backend
  generates (src/backend/mode_gpu.js, lines 262-397): `integerMod`, the
  index-to-coordinate decomposition `indexTo3D`, the addressing of `get`, the
  thread index of `main`, and the byte packing of `encode32` / `decode32`.
  Floats that only carry integers are modelled as integers; the rounding
  `floor(v + 0.5)` applied to such values is the identity and is left out.
  This is exact only while the values stay below 2^24, the largest range in
  which binary32 holds every integer; beyond it the source's float
  arithmetic may round where these integer definitions do not.
*/
module Shader {

  // ---------------------------------------------------------------------------
  // integerMod (lines 262-270)
  // ---------------------------------------------------------------------------

  /**
    `integerMod(x, y)`: `x - y * floor(x / y)`, reset to 0 when above `y - 0.5`.
    Dafny's `/` with a positive divisor is floor division. The `int` overload
    (lines 268-270) rounds the same value and is the same function on integers.
  */
  function IntegerMod(x: int, y: int): (r: int)
    requires y > 0
    ensures 0 <= r < y
    ensures r == x % y
  {
    var res := x - y * (x / y);
    if 2 * res > 2 * y - 1 then 0 else res
  }

  /** The residue is the unique representative: any q * y + r with 0 <= r < y gives back r. */
  lemma IntegerModOfDecomposition(q: int, y: int, r: int)
    requires y > 0 && 0 <= r < y
    ensures IntegerMod(q * y + r, y) == r
    ensures (q * y + r) / y == q
  {
    var x := q * y + r;
    var q' := x / y;
    var r' := x % y;
    assert x == q' * y + r';
    if q' < q {
      assert (q - q') * y >= y by { MulAtLeast(q - q', y); }
    } else if q' > q {
      assert (q' - q) * y >= y by { MulAtLeast(q' - q, y); }
    }
  }

  lemma MulAtLeast(a: int, b: int)
    requires a >= 1 && b > 0
    ensures a * b >= b
  {
  }

  // ---------------------------------------------------------------------------
  // indexTo3D, get and main (lines 341-362, 388)
  // ---------------------------------------------------------------------------

  datatype Coord = Coord(x: int, y: int, z: int)

  /** `indexTo3D(idx, texDim)`: z from the plane size, then y and x from the remainder. */
  function IndexTo3D(idx: int, dimX: int, dimY: int): (c: Coord)
    requires dimX > 0 && dimY > 0
    ensures 0 <= c.x < dimX && 0 <= c.y < dimY
    ensures idx >= 0 ==> c.z >= 0
    ensures c.z * (dimX * dimY) + c.y * dimX + c.x == idx
  {
    var plane := dimX * dimY;
    PlanePositive(dimX, dimY);
    var z := idx / plane;
    DivMod(idx, plane);
    var rest := idx - z * plane;
    var y := rest / dimX;
    DivMod(rest, dimX);
    RowBound(rest, dimX, dimY);
    var x := IntegerMod(rest, dimX);
    Coord(x, y, z)
  }

  lemma PlanePositive(dimX: int, dimY: int)
    requires dimX > 0 && dimY > 0
    ensures dimX * dimY > 0
  {
    MulAtLeast(dimY, dimX);
  }

  /** Floor division by a positive divisor: quotient and remainder. */
  lemma DivMod(a: int, b: int)
    requires b > 0
    ensures a == (a / b) * b + a % b && 0 <= a % b < b
    ensures a >= 0 ==> a / b >= 0
  {
  }

  /** An offset inside a plane of `dimX * dimY` lies in one of its `dimY` rows. */
  lemma RowBound(rest: int, dimX: int, dimY: int)
    requires dimX > 0 && 0 <= rest < dimX * dimY
    ensures 0 <= rest / dimX < dimY
  {
    if rest / dimX >= dimY {
      MulMonotoneInt(dimY, rest / dimX, dimX);
      DivMod(rest, dimX);
    }
  }

  /** Row `y`, column `x` of a plane lies inside it. */
  lemma InPlane(x: int, y: int, dimX: int, dimY: int)
    requires 0 <= x < dimX && 0 <= y < dimY
    ensures 0 <= y * dimX + x < dimX * dimY
  {
    MulMonotoneInt(0, y, dimX);
    MulMonotoneInt(y, dimY - 1, dimX);
  }

  /** `z * p + r` with `r` inside the block lies inside `n` blocks exactly when `z` does. */
  lemma BlockBound(z: int, r: int, p: int, n: int)
    requires p > 0 && 0 <= r < p && 0 <= z * p + r
    ensures z >= 0
    ensures z * p + r < p * n <==> z < n
  {
    if z < 0 {
      MulMonotoneInt(z + 1, 0, p);
    }
    if z < n {
      MulMonotoneInt(z, n - 1, p);
    } else {
      MulMonotoneInt(n, z, p);
    }
  }

  /** The decomposition is unique: any in-range coordinate with the right linear index is the one `indexTo3D` finds. */
  lemma IndexTo3DUnique(idx: int, dimX: int, dimY: int, c: Coord)
    requires dimX > 0 && dimY > 0
    requires 0 <= c.x < dimX && 0 <= c.y < dimY
    requires c.z * (dimX * dimY) + c.y * dimX + c.x == idx
    ensures IndexTo3D(idx, dimX, dimY) == c
  {
    var plane := dimX * dimY;
    var rest := c.y * dimX + c.x;
    InPlane(c.x, c.y, dimX, dimY);
    IntegerModOfDecomposition(c.z, plane, rest);
    IntegerModOfDecomposition(c.y, dimX, c.x);
  }

  lemma MulMonotoneInt(a: int, b: int, c: int)
    requires a <= b && c >= 0
    ensures a * c <= b * c
  {
    assert b * c - a * c == (b - a) * c;
    MulNonNegative(b - a, c);
  }

  lemma MulNonNegative(a: int, b: int)
    requires a >= 0 && b >= 0
    ensures a * b >= 0
  {
  }

  /** The linear index `get` recomputes from a coordinate (line 353). */
  function LinearIndex(c: Coord, dimX: int, dimY: int): int
  {
    c.z * (dimX * dimY) + c.y * dimX + c.x
  }

  /** GLSL `mod(xyz, texDim)` on positive extents (line 352). */
  function Wrap(c: Coord, dimX: int, dimY: int, dimZ: int): (w: Coord)
    requires dimX > 0 && dimY > 0 && dimZ > 0
    ensures 0 <= w.x < dimX && 0 <= w.y < dimY && 0 <= w.z < dimZ
  {
    Coord(c.x % dimX, c.y % dimY, c.z % dimZ)
  }

  /** The element index `get(tex, size, dim, z, y, x)` reads, with or without wraparound. */
  function GetIndex(c: Coord, dimX: int, dimY: int, dimZ: int, wraparound: bool): int
    requires dimX > 0 && dimY > 0 && dimZ > 0
  {
    LinearIndex(if wraparound then Wrap(c, dimX, dimY, dimZ) else c, dimX, dimY)
  }

  /** The texel (s, t) that holds element `index` of a texture `w` texels wide (lines 354-356). */
  function TexelOf(index: int, w: int): (st: (int, int))
    requires w > 0 && index >= 0
    ensures 0 <= st.0 < w && st.1 >= 0
    ensures st.1 * w + st.0 == index
  {
    (IntegerMod(index, w), index / w)
  }

  /** The flat thread index `main` derives for the fragment in column `col`, row `row` (line 388). */
  function ThreadIndex(col: int, row: int, w: int): int
  {
    col + row * w
  }

  /** A thread index below X * Y * Z decomposes into a coordinate inside the tensor. */
  lemma IndexTo3DInRange(idx: int, dimX: int, dimY: int, dimZ: int)
    requires dimX > 0 && dimY > 0 && dimZ > 0
    requires 0 <= idx < dimX * dimY * dimZ
    ensures 0 <= IndexTo3D(idx, dimX, dimY).z < dimZ
  {
    var c := IndexTo3D(idx, dimX, dimY);
    InPlane(c.x, c.y, dimX, dimY);
    BlockBound(c.z, c.y * dimX + c.x, dimX * dimY, dimZ);
  }

  /**
    The address law: a thread index below X * Y * Z decomposes into an in-range
    coordinate, and `get` at that coordinate reads back the same index.
  */
  lemma AddressRoundTrip(idx: int, dimX: int, dimY: int, dimZ: int, wraparound: bool)
    requires dimX > 0 && dimY > 0 && dimZ > 0
    requires 0 <= idx < dimX * dimY * dimZ
    ensures 0 <= IndexTo3D(idx, dimX, dimY).z < dimZ
    ensures GetIndex(IndexTo3D(idx, dimX, dimY), dimX, dimY, dimZ, wraparound) == idx
  {
    IndexTo3DInRange(idx, dimX, dimY, dimZ);
    var c := IndexTo3D(idx, dimX, dimY);
    WrapInside(c, dimX, dimY, dimZ);
  }

  /** Wrapping leaves a coordinate inside the tensor where it is. */
  lemma WrapInside(c: Coord, dimX: int, dimY: int, dimZ: int)
    requires dimX > 0 && dimY > 0 && dimZ > 0
    requires 0 <= c.x < dimX && 0 <= c.y < dimY && 0 <= c.z < dimZ
    ensures Wrap(c, dimX, dimY, dimZ) == c
  {
  }

  /** Conversely, an in-range coordinate survives the round trip through its linear index. */
  lemma CoordRoundTrip(c: Coord, dimX: int, dimY: int, dimZ: int)
    requires dimX > 0 && dimY > 0 && dimZ > 0
    requires 0 <= c.x < dimX && 0 <= c.y < dimY && 0 <= c.z < dimZ
    ensures 0 <= LinearIndex(c, dimX, dimY) < dimX * dimY * dimZ
    ensures IndexTo3D(LinearIndex(c, dimX, dimY), dimX, dimY) == c
  {
    var plane := dimX * dimY;
    InPlane(c.x, c.y, dimX, dimY);
    MulNonNegative(c.z, plane);
    BlockBound(c.z, c.y * dimX + c.x, plane, dimZ);
    IndexTo3DUnique(LinearIndex(c, dimX, dimY), dimX, dimY, c);
  }

  /** With wraparound every coordinate, negative or too large, addresses an element inside the tensor. */
  lemma WrappedIndexInRange(c: Coord, dimX: int, dimY: int, dimZ: int)
    requires dimX > 0 && dimY > 0 && dimZ > 0
    ensures 0 <= GetIndex(c, dimX, dimY, dimZ, true) < dimX * dimY * dimZ
  {
    CoordRoundTrip(Wrap(c, dimX, dimY, dimZ), dimX, dimY, dimZ);
  }

  /**
    `main` and `get` agree: the fragment in column `col` and row `row` of a
    texture `w` wide has a thread index whose texel is that fragment, and the
    index is its position when the texture is read back row by row.
  */
  lemma FragmentTexelAgreement(col: int, row: int, w: int)
    requires w > 0 && 0 <= col < w && row >= 0
    ensures ThreadIndex(col, row, w) >= 0
    ensures TexelOf(ThreadIndex(col, row, w), w) == (col, row)
  {
    MulMonotoneInt(0, row, w);
    IntegerModOfDecomposition(row, w, col);
  }

  // ---------------------------------------------------------------------------
  // encode32 / decode32 byte packing (lines 276-335)
  // ---------------------------------------------------------------------------

  /** One texel: four channels, each meant to hold a byte. */
  datatype Rgba = Rgba(r: int, g: int, b: int, a: int)

  predicate IsByte(v: int)
  {
    0 <= v < 256
  }

  predicate IsBytes(c: Rgba)
  {
    IsByte(c.r) && IsByte(c.g) && IsByte(c.b) && IsByte(c.a)
  }

  /** `rgba.rgba = rgba.abgr`: the channel reversal for big-endian hosts (lines 277, 332). */
  function Swap(c: Rgba): Rgba
  {
    Rgba(c.a, c.b, c.g, c.r)
  }

  /** Swapping twice restores the texel, so decoding undoes the encoder's swap. */
  lemma SwapInvolution(c: Rgba)
    ensures Swap(Swap(c)) == c
  {
  }

  /** The three mantissa bytes of `encode32` (lines 313-315) from the integer significand. */
  datatype MantissaBytes = MantissaBytes(part3: int, part2: int, part1: int)

  /**
    `int(F * exp2(23 - e))` is the integer significand `m`; the two coarser
    products are `m` divided by 2^8 and 2^16, so the parts are taken from `m`.
  */
  function SplitMantissa(m: int): (p: MantissaBytes)
    ensures 0 <= p.part3 < 128 && IsByte(p.part2) && IsByte(p.part1)
  {
    MantissaBytes(IntegerMod(m / 65536, 128), IntegerMod(m / 256, 256), IntegerMod(m, 256))
  }

  /**
    A normalised significand (hidden bit set, 24 bits) splits into its 23
    fraction bits: the hidden bit falls away in the `mod 128` of the top part.
  */
  lemma SplitMantissaFraction(m: int)
    requires 0x80_0000 <= m < 0x100_0000
    ensures SplitMantissa(m).part3 * 65536 + SplitMantissa(m).part2 * 256 + SplitMantissa(m).part1 == m - 0x80_0000
  {
    var p := SplitMantissa(m);
    var f := m - 0x80_0000;
    assert m / 65536 == 128 + f / 65536;
    assert p.part3 == f / 65536;
    assert m / 256 == 0x8000 + f / 256;
    assert p.part2 == (f / 256) % 256;
    assert p.part1 == f % 256;
  }

  /**
    The byte packing of `encode32` (lines 326-331), with the exponent already
    biased by 127: `a` holds the sign bit and the top seven exponent bits, `b`
    the low exponent bit and the top seven fraction bits.
  */
  function Pack(sign: int, exponent: int, p: MantissaBytes, littleEndian: bool): Rgba
  {
    var a := 128 * sign + exponent / 2;
    var b := 128 * IntegerMod(exponent, 2) + p.part3;
    var c := Rgba(p.part1, p.part2, b, a);
    if littleEndian then c else Swap(c)
  }

  /** `encode32(0.0)`: both zeros become the all-zero texel (line 300). */
  const ZeroTexel := Rgba(0, 0, 0, 0)

  /** The fields `decode32` recovers (lines 278-293). */
  datatype Fields = Fields(sign: int, exponent: int, top: int, mid: int, low: int)

  /** `decode32`'s integer steps: sign, biased exponent and the three fraction bytes. */
  function Unpack(texel: Rgba, littleEndian: bool): (f: Fields)
    ensures f.sign == 1 || f.sign == -1
  {
    var c := if littleEndian then texel else Swap(texel);
    var sign := if c.a > 127 then -1 else 1;
    var exponent := 2 * (if c.a > 127 then c.a - 128 else c.a) + (if c.b > 127 then 1 else 0);
    var top := if c.b > 127 then c.b - 128 else c.b;
    Fields(sign, exponent, top, c.g, c.r)
  }

  /** The 23-bit fraction `decode32` sums, in units of 2^(exponent - 127 - 23) (lines 291-293). */
  function FractionOf(f: Fields): int
  {
    f.top * 65536 + f.mid * 256 + f.low
  }

  /** Every channel the encoder writes is a byte. */
  lemma PackIsBytes(sign: int, exponent: int, p: MantissaBytes, littleEndian: bool)
    requires sign == 0 || sign == 1
    requires 0 <= exponent < 256
    requires 0 <= p.part3 < 128 && IsByte(p.part2) && IsByte(p.part1)
    ensures IsBytes(Pack(sign, exponent, p, littleEndian))
  {
  }

  /** Decoding the packed bytes recovers sign, biased exponent and the fraction bytes, on either host order. */
  lemma UnpackPack(sign: int, exponent: int, p: MantissaBytes, littleEndian: bool)
    requires sign == 0 || sign == 1
    requires 0 <= exponent < 256
    requires 0 <= p.part3 < 128 && IsByte(p.part2) && IsByte(p.part1)
    ensures Unpack(Pack(sign, exponent, p, littleEndian), littleEndian)
            == Fields(if sign == 1 then -1 else 1, exponent, p.part3, p.part2, p.part1)
  {
  }

  /** Conversely every texel of bytes is the packing of the fields decoded from it. */
  lemma PackUnpack(texel: Rgba, littleEndian: bool)
    requires IsBytes(texel)
    ensures var f := Unpack(texel, littleEndian);
            Pack(if f.sign == -1 then 1 else 0, f.exponent, MantissaBytes(f.top, f.mid, f.low), littleEndian) == texel
  {
  }

  /**
    The texel channels, read as a little-endian 32-bit word, are the IEEE 754
    binary32 bit pattern: sign bit 31, exponent bits 30-23, fraction bits 22-0.
    This is the byte order of a `Float32Array` on a little-endian host.
  */
  lemma PackIsBinary32(sign: int, exponent: int, m: int)
    requires sign == 0 || sign == 1
    requires 0 <= exponent < 256
    requires 0x80_0000 <= m < 0x100_0000
    ensures var c := Pack(sign, exponent, SplitMantissa(m), true);
            c.r + 256 * c.g + 65536 * c.b + 16777216 * c.a
            == sign * 0x8000_0000 + exponent * 0x80_0000 + (m - 0x80_0000)
  {
    SplitMantissaFraction(m);
    var p := SplitMantissa(m);
    assert exponent == 2 * (exponent / 2) + exponent % 2;
  }

  /**
    The whole integer round trip: a normalised float with sign bit `sign`,
    biased exponent and 24-bit significand `m` is decoded back to the same sign,
    exponent and 23-bit fraction.
  */
  lemma EncodeDecodeRoundTrip(sign: int, exponent: int, m: int, littleEndian: bool)
    requires sign == 0 || sign == 1
    requires 0 <= exponent < 256
    requires 0x80_0000 <= m < 0x100_0000
    ensures var f := Unpack(Pack(sign, exponent, SplitMantissa(m), littleEndian), littleEndian);
            f.sign == (if sign == 1 then -1 else 1) && f.exponent == exponent && FractionOf(f) == m - 0x80_0000
  {
    UnpackPack(sign, exponent, SplitMantissa(m), littleEndian);
    SplitMantissaFraction(m);
  }

  /** Zero and negative zero share the all-zero texel, which decodes with exponent 0 (a zero) and sign +1. */
  lemma ZeroTexelDecodes(littleEndian: bool)
    ensures Unpack(ZeroTexel, littleEndian) == Fields(1, 0, 0, 0, 0)
  {
  }
}

=== FILE: values.dfy ===
/**
  The JavaScript values the WebGL backend inspects: numbers, (nested) arrays,
  GPU-resident textures and everything else, the four argument-type words,
  and the errors the backend throws.
*/
module Values {

  /** A WebGL texture object, known only by identity. */
  type TextureHandle = nat

  /** A dimension list as stored on a texture: never empty. */
  type Dims = s: seq<nat> | |s| >= 1 witness [1]

  /** The GPUTexture record: texture, its texel size [w, h] and its logical dimensions. */
  datatype GPUTexture = GPUTexture(texture: TextureHandle, size: seq<nat>, dimensions: Dims)

  /** A JavaScript value, as far as the backend distinguishes values. */
  datatype Value =
    | Undefined
    | Null
    | Num(x: real)
    | Str(s: string)
    | Arr(items: seq<Value>)
    | Tex(tex: GPUTexture)
    | Other   // booleans, functions and plain objects

  /**
    Element k of an array as JavaScript reads it, `arguments[k]` included:
    the element, or undefined outside the array.
  */
  function At(a: seq<Value>, k: int): Value
  {
    if 0 <= k < |a| then a[k] else Undefined
  }

  /** The classification `getArgumentType` returns (as a word). */
  datatype ArgType = ArrayType | NumberType | TextureType | UnknownType

  /** The errors the backend throws, one per `throw` site. */
  datatype Error =
    | NotAFunction                              // kernel source does not start with "function"
    | AutoDimensionsArity(count: nat)           // auto dimensions with arguments.length != 1
    | UnknownDimensions(x: Value)               // getDimensions of a non-array, non-texture
    | AutoDimensionsUnsupported(t: ArgType)     // auto dimensions from a number or unknown value
    | GraphicalDimensions(rank: nat)            // graphical mode with a rank other than 2
    | VertexShaderCompile
    | FragmentShaderCompile
    | InputNotSupported(x: Value)               // a parameter bound to an unsupported value

  /** `getArgumentType`: Array.isArray, then typeof number, then instanceof GPUTexture. */
  function GetArgumentType(arg: Value): (t: ArgType)
    ensures t == ArrayType <==> arg.Arr?
    ensures t == NumberType <==> arg.Num?
    ensures t == TextureType <==> arg.Tex?
    ensures t == UnknownType <==> !(arg.Arr? || arg.Num? || arg.Tex?)
  {
    match arg
    case Arr(_) => ArrayType
    case Num(_) => NumberType
    case Tex(_) => TextureType
    case _ => UnknownType
  }

  /** The word `getArgumentType` returns for each classification. */
  function TypeWord(t: ArgType): (w: string)
    ensures |w| >= 5 && '-' !in w && '[' !in w
  {
    match t
    case ArrayType => "Array"
    case NumberType => "Number"
    case TextureType => "Texture"
    case UnknownType => "Unknown"
  }

  /** The four words begin with four different letters, so no word is a prefix of another. */
  lemma TypeWordsPrefixFree(t1: ArgType, t2: ArgType)
    ensures TypeWord(t1)[0] == TypeWord(t2)[0] <==> t1 == t2
  {
  }

  /** The argument kinds of a call, in argument order. */
  function ArgTypes(args: seq<Value>): (ts: seq<ArgType>)
    ensures |ts| == |args|
    ensures forall i :: 0 <= i < |args| ==> ts[i] == GetArgumentType(args[i])
  {
    if |args| == 0 then [] else [GetArgumentType(args[0])] + ArgTypes(args[1..])
  }
}

=== FILE: wrappers.dfy ===
/** Option and Result, used for JavaScript's `undefined` and for thrown errors. */
module Wrappers {

  datatype Option<+T> = None | Some(value: T)

  datatype Result<+R, +E> = Success(value: R) | Failure(error: E) {
    predicate IsFailure() {
      Failure?
    }

    function PropagateFailure<U>(): Result<U, E>
      requires Failure?
    {
      Failure(error)
    }

    function Extract(): R
      requires Success?
    {
      value
    }
  }
}
